=== FILE: README.md ===
# Loan tracker: accrual and loan lifecycle

A Dafny model of the logic of a small PHP loan tracker ("Sistema de Controle de
Empréstimos"). The tracker keeps active loans in the `devedores` table and settled
loans in the `quitados` table of an SQLite file. An older version kept both as lists
in `dados.json`. The model covers:

- the store operations of db.php: `buscarDevedor`, `adicionarDevedor`,
  `atualizarDevedor`, `atualizarValorAtualDevedor` and `moverParaQuitados`, plus the
  emptiness guard of `migrarDadosJsonParaSQLite`;
- the interest run `atualizarJuros` of db.php. Every listing triggers a run. It
  multiplies a balance by 1.4 once 30 whole days have passed since the last payment.
  It adds a flat R$10 to a loan whose last payment kind is `nenhum`;
- the list-based JSON back end of funcoes.php: lookup, in-place update, the move to
  the settled list, its own interest run (calendar-month test, R$20 per day) and
  `calcularJurosMensaisPossiveis`;
- the request handlers of the pages, as functions of already-parsed inputs:
  - payment (pagamento.php), with the kinds `total` / `juros` / `nenhum`;
  - edit (editar.php);
  - registration (cadastro.php and the identical inline form of index.php);
  - the listing of index.php: refresh, the due-today split, the `strcmp` sort and the totals;
  - the elapsed-time texts and interest figures of detalhes.php.

Conventions:

- Money on the SQLite side is whole centavos (`Money.Cents`). The 40% and 140%
  figures are exact in thousandths of a real (`Money.Mills`). PHP's `round(x, 2)` is
  `Money.RoundToCents`: nearest centavo, ties away from zero.
- The JSON back end never rounds, so its amounts are exact `real`s.
- Dates are `Calendar.Date(year, month, day)`, numbered by `Calendar.DayNumber`.
- The wall clock is an explicit `Calendar.Instant`: a date plus the microseconds
  since its midnight.
- `diff()->days` is `Calendar.WholeDays`: the whole days in the absolute distance
  between the clock and the stored date's midnight.
- PHP's `$now > new DateTime($d)` is `Calendar.IsAfter`.
- Each table is a sequence of rows in rowid order, with its AUTOINCREMENT counter.
- Storage failures are explicit `fault` parameters.

Where the program's own comments and its code disagree, the model follows the code:

- The comments of db.php (lines 306 and 334) promise a penalty of R$10 per day of
  delay. The code adds a flat R$10 per run (line 362), after the 1.4 multiplier
  (line 343). So a R$1000 loan with no payment, 30 days old, becomes R$1410.00 in
  one run (`Accrual.ExampleThirtyDays`).
- The comment at db.php:333 speaks of 40% per 30-day cycle. The code multiplies
  again on every run once 30 days have passed, because nothing records that a
  cycle was charged (`Accrual.InterestRepeatsOnRerun`).
- The doc comment at funcoes.php:85 says R$10 per day of delay. The JSON back end
  adds 20 per day (funcoes.php:126).
- pagamento.php and editar.php compute a new balance. `atualizarDevedor` does not
  write it (db.php:234). See Findings.

Other behaviour the code fixes and the model keeps:

- A settled loan gets a new `quitados` id. It does not keep its `devedores` id.
- `diff()->days` is an absolute distance, so a last payment date in the future
  also counts days.
- PDO runs in exception mode (db.php:25). A failed write ends the page. The
  interest run is not inside a transaction, so the balances written before the
  failure stay (`Accrual.RunAccrual`).

## Model

| member | source | states |
|---|---|---|
| Money.RoundToCents | db.php:367 | `round(x, 2)`: the result is within half a centavo of the value, ties go away from zero, and exact centavos are kept |
| Calendar.WholeDaysForward | db.php:323-324 | on or after the stored date, `diff()->days` is the difference of day numbers |
| Calendar.WholeDaysBackward | db.php:323-324 | before the stored date, `diff()->days` is one less than the day difference unless the clock reads exactly midnight |
| Calendar.IsAfterByDays | db.php:350 | the clock is past the stored date's midnight iff it is a later day, or the same day after midnight |
| Calendar.WholeDaysSameDate | funcoes.php:121 | a moment is zero whole days from its own date |
| Text.Trim | cadastro.php:24-26 | `trim` returns the slice of the input left after dropping whitespace before and after it, and that slice neither starts nor ends with whitespace. Whitespace-free text is unchanged |
| Text.TrimIdempotent | cadastro.php:24-26 | trimming twice is trimming once |
| Text.Strcmp | index.php:53-59 | `strcmp` returns -1, 0 or 1. It returns 0 exactly for equal strings, and -1 exactly when the first string is a proper prefix of the second or has the smaller character at the first difference (1 for the converse) |
| Text.StrcmpAntisymmetric | index.php:53-59 | swapping the arguments of `strcmp` negates the result |
| Text.NameLeTotal | index.php:53-59 | any two names are ordered one way or the other |
| Text.NameLeTransitive | index.php:53-59 | the name order is transitive |
| Text.NatToString | detalhes.php:46 | the decimal text of a count is a non-empty string of digits in canonical form: "0" for zero, and no leading zero otherwise |
| Text.ParseNatToString | detalhes.php:46 | reading the decimal text of a count back gives the count |
| PaymentKinds.Parse | pagamento.php:46-100 | a posted kind is recognised exactly when it is one of 'total', 'juros', 'nenhum', and then it is that kind's text |
| Ledger.FindDebtor | db.php:174-181 | `buscarDevedor` returns a row with the id, and returns null exactly when no row has it |
| Ledger.InsertDebtor | db.php:191-206 | an insert appends the row under the next AUTOINCREMENT id, keeping the table invariants |
| Ledger.AddDebtor | db.php:190-207 | the new row has a fresh id. Its balance is the principal, its last payment date the loan date and its kind 'nenhum', whatever the array holds. A missing phone or address becomes '' |
| Ledger.UpdateDebtor | db.php:217-240 | only name, phone, address, principal, loan date, last payment date and kind change, and only in rows with the id. Balances, ids, other rows and `quitados` are unchanged. A missing id still reports success. A fault changes nothing |
| Ledger.UpdateThenFind | db.php:217-240 | after an update, the row found under the id has the new fields and the old balance |
| Ledger.UpdateIsPointwise | db.php:219-227 | with unique ids, an update rewrites exactly the row at the id's position |
| Ledger.SetBalance | db.php:250-255 | `atualizarValorAtualDevedor` changes only the balance of the row with the id |
| Ledger.SetBalanceIsPointwise | db.php:251-254 | with unique ids, the balance write changes exactly one row |
| Ledger.SetBalanceThenFind | db.php:250-255 | after a balance write, the row found under the id is the old row with the new balance |
| Ledger.RemoveId | db.php:289-291 | the delete keeps exactly the rows with other ids |
| Ledger.RemoveIdSplices | db.php:289-291 | with unique ids, the delete splices out one row and keeps the order of the rest |
| Ledger.MoveToSettled | db.php:265-302 | the move succeeds iff the id exists and no fault occurs. On failure both tables are unchanged. On success the id is gone from `devedores` and `quitados` gains one row copying name, phone, address, principal and loan date, settled today. No other row is lost |
| Ledger.MoveSplicesDebtors | db.php:288-291 | a successful move removes the debtor at its position and keeps the other debtors in order |
| Ledger.UpdateIgnoresBalance | db.php:217-240 | the update gives the same store whatever balance the array carries |
| Ledger.UpdateThenMoveKeepsOthers | db.php:217-302 | overwriting a debtor and then moving it succeeds. Every other debtor row is kept unchanged, no row appears that was not there, and with unique ids the table shrinks by one |
| Ledger.IndexOfSameIds | db.php:175-180 | lookup by id depends only on the ids, so a field update does not change where an id is found |
| Migration.InsertAllDebtors | db.php:93-108 | the k-th migrated debtor is appended as row k after the existing rows, with id counter+k and the entry's own balance, date and kind, keeping the table invariants |
| Migration.InsertAllSettled | db.php:110-124 | the k-th migrated settled loan is appended as row k after the existing rows, with id counter+k and its own settlement date |
| Migration.Migrate | db.php:65-142 | rows are copied only when both tables are empty, all or nothing, and then the tables hold exactly the file's entries in file order. The result is true iff the file had contents and no fault occurred, even when the guard skipped the copy |
| Migration.MigrateTwiceInsertsNothing | db.php:85-91 | after a successful run, a second run leaves the store as it is |
| Accrual.Accrue | db.php:316-373 | a write happens only when a rule fired and the value changes. The written value is the computed one to the nearest centavo. A skipped write after a rule fired means the computed value rounds back to the stored balance |
| Accrual.AccruedRow | db.php:366-373 | a run changes nothing in a row but its balance |
| Accrual.PenaltyIsFlat | db.php:349-364 | penalty without interest adds exactly R$10, whatever the number of days |
| Accrual.InterestMultiplies | db.php:338-347 | interest without penalty gives 1.4 times the balance, to the nearest centavo |
| Accrual.NoRuleNoChange | db.php:319-320 | with neither rule firing, the row is untouched |
| Accrual.BothRules | db.php:338-367 | with both rules, the balance is multiplied first and then R$10 is added |
| Accrual.NeverLowers | db.php:338-373 | a non-negative balance never decreases |
| Accrual.TinyBalancesStay | db.php:367-370 | balances of 0 or 1 centavo are not written by interest alone, because 1.4 times them rounds back |
| Accrual.InterestGrowsFromTwoCentavos | db.php:340-373 | from 2 centavos up, interest alone always writes a larger balance |
| Accrual.PenaltyRepeatsOnRerun | db.php:349-364 | a second run at the same moment charges the R$10 again |
| Accrual.InterestRepeatsOnRerun | db.php:338-347 | a second run at the same moment multiplies again |
| Accrual.RunAccrual | db.php:311-377 | a run that completes leaves exactly the accrued rows and an unchanged `quitados`, and reports true iff some row was written. A run stops exactly when the write for the failing row is attempted, and then the rows before it are accrued and the rest untouched |
| Accrual.RunNeverLowers | db.php:311-377 | over a whole run, no non-negative balance goes down |
| Accrual.RunTouchesOnlyBalances | db.php:250-255 | after a run every row equals its old self except for the balance |
| Accrual.ExampleThirtyDays | db.php:323-367 | R$1000 lent on 2025-01-01 with no payment is R$1410.00 after one run at noon on 2025-01-31 |
| Legacy.FindById | funcoes.php:152-159 | `buscarDevedorPorId` returns the first entry whose id is strictly equal, and null exactly when there is none |
| Legacy.UpdateEntry | funcoes.php:168-179 | the first matching entry is replaced in place and true is returned. Other entries and the order are unchanged. An absent id gives false and an untouched list |
| Legacy.UpdateThenFind | funcoes.php:168-179 | after an update, a lookup of the id returns the new record |
| Legacy.MoveToSettled | funcoes.php:188-206 | the first match is spliced out at its index and appended to the settled list with today's date. Counts change by -1/+1 and the multiset of debtors loses exactly that entry. An absent id changes nothing |
| Legacy.MovedIsGone | funcoes.php:188-206 | with unique ids, the moved debtor is no longer found |
| Legacy.PossibleMonthlyInterest | funcoes.php:217-227 | the total is 40% of the summed principals |
| Legacy.AccrueEntry | funcoes.php:94-140 | only the balance and the update stamp can change. A balance of zero or less is skipped. Under a month, an entry whose kind is not 'nenhum', or that was stamped today, is left as it is. Any change stamps today |
| Legacy.MonthBranch | funcoes.php:106-118 | a month or more since the last payment multiplies by 1.4, stamps today and adds no penalty in that run |
| Legacy.PenaltyBranch | funcoes.php:119-128 | under a month with kind 'nenhum', the balance grows by 20 per day since the last stamp |
| Legacy.EntryNeverLowers | funcoes.php:94-140 | a positive balance never decreases |
| Legacy.PenaltyNotRepeated | funcoes.php:119-128 | a rerun at the same moment adds no further penalty, because the stamp is today |
| Legacy.AllNeverLowers | funcoes.php:91-143 | a whole run lowers no positive balance |
| Legacy.AllPenaltyNotRepeated | funcoes.php:119-128 | when no entry is a month past its last payment, a second run at the same moment changes nothing |
| Registration.Register | cadastro.php:20-53 | rejected exactly when the trimmed name is empty (or "0"), the amount is not positive or the date is empty, and then nothing is written. An accepted form whose insert fails adds nothing. Otherwise one row is added with the trimmed text, the amount as principal and balance, the loan date as last payment date and kind 'nenhum' |
| Registration.ZeroNameRejected | cadastro.php:31-32 | the name " 0 " is refused, as PHP's `empty` treats "0" as empty |
| Payment.ApplyKind | pagamento.php:46-96 | for a recognised kind: an update fault writes nothing. 'total' moves the stamped loan to `quitados` when both writes succeed, keeping every other debtor and every earlier settled row. 'juros' reports 40% of the principal. A recorded payment equals the stamping update |
| Payment.HandlePayment | pagamento.php:19-101 | the page redirects, without writing, exactly when the id is missing or unknown. It shows the form exactly when a known id comes with nothing posted. Every outcome has its own exact condition: an unknown kind writes nothing; 'juros' and 'nenhum' are recorded exactly when the update succeeds; 'total' settles exactly when both writes succeed and stays recorded but active when only the move fails. A known id with a recognised kind always gets that kind's branch in full. On settlement the id leaves `devedores`, every other debtor stays, and `quitados` keeps its rows and gains a copy settled today |
| Payment.RecordedPaymentStampsOnly | pagamento.php:39-44 | a recorded payment that leaves the loan active changes only its last payment date and kind |
| Payment.InterestPaymentKeepsBalance | pagamento.php:67-83 | as written, a 'juros' payment leaves the stored balance unchanged |
| Payment.HandlePaymentIntended | pagamento.php:47-83 | the corrected handler has the same outcomes. When the loan stays active, the row afterwards is the as-written row with the balance the kind calls for: 0, the principal, or unchanged |
| Payment.IntendedInterestResetsBalance | pagamento.php:72-73 | corrected: after a 'juros' payment the loan owes exactly its principal |
| Payment.IntendedFullPaymentZeroesBalance | pagamento.php:47-65 | corrected: a 'total' payment whose move failed leaves the loan owing nothing |
| Edit.HandleEdit | editar.php:19-88 | a missing or unknown id redirects. An edit is rejected without a write iff the name is empty, the principal is not positive or a date is empty. The move is attempted only for kind 'total' after a successful update. It files a copy of the edited row, settled today, and keeps every other debtor and settled row. A saved edit is exactly the update |
| Edit.SavedEditKeepsBalance | editar.php:52-72 | as written, a saved edit stores the posted kind, name and principal but keeps the old balance |
| Edit.EditStoresUnknownKind | editar.php:45-61 | an acceptable edit with any kind outside 'total', 'juros' and 'nenhum' is saved with that kind stored verbatim and the loan kept active |
| Edit.HandleEditIntended | editar.php:64-72 | the corrected handler has the same outcomes. After a save, the row is the as-written row with the balance editar.php computes: 0 for 'total', the new principal for 'juros', otherwise unchanged |
| Edit.IntendedEditBalance | editar.php:64-69 | corrected: after a saved edit the balance is 0 for 'total', the new principal for 'juros', and otherwise unchanged |
| Listing.Select | index.php:34-50 | each selection holds exactly the rows that pass (or fail) the due-today test |
| Listing.SelectPartitions | index.php:34-50 | the two selections together are the input, each row exactly as often |
| Listing.Insert | index.php:53-59 | inserting into a name-sorted list keeps it sorted and adds exactly the one row |
| Listing.SortByName | index.php:53-59 | `usort` by `strcmp` yields a permutation sorted ascending by name |
| Listing.Classify | index.php:30-59 | the buckets together are a permutation of the rows. Every due-today row and no other row is in the first bucket. Both buckets are sorted by name |
| Listing.ClassifyPlacesEachLoan | index.php:42-50 | a loan is in the due-today bucket iff it is due today, and in the other bucket otherwise |
| Listing.MonthlyInterestIsFortyPercent | index.php:66-72 | the summed monthly interest is 40% of the summed principals |
| Listing.ComputeTotals | index.php:61-84 | the totals are: the principals, 40% of them, 140% of them, and the constant R$80 |
| Listing.TotalsIgnoreBalances | index.php:61-79 | rows differing only in balance give the same totals |
| Listing.RefreshAndList | index.php:23-84 | the interest run happens first. A failed balance write ends the page with nothing listed. Otherwise the buckets classify and partition the reloaded rows, and the totals equal those of the rows before the run |
| Listing.PaidTodayNotDue | index.php:36-43 | a loan last paid today is not due today |
| Listing.DueAfterFebruary | index.php:38-43 | paid on 1 February, the loan is due on 1 March after only 28 days |
| Listing.DueAYearLater | index.php:38-43 | the same day and month a year later is due, as the month test ignores the year |
| Details.ReadFormatRoundTrip | detalhes.php:44-64 | the elapsed-time text reads back to exactly what it shows: years and months once a year has passed, else months and days, else days |
| Details.FormatElapsedInjective | detalhes.php:45-51 | two gaps get the same text iff they show the same figures |
| Details.DetailFigures | detalhes.php:36-70 | the interest shown is 40% of the principal and the total is 140% of it. The percentage is 40 and is undefined (a division by zero) for a zero principal |

## Left out

- HTML output, `header()` redirects and the reading of `$_GET` / `$_POST`, including
  `floatval`: the handlers take already-parsed inputs. Form amounts are taken to be
  whole centavos, and a non-empty malformed date is not represented. The page's
  JavaScript (`selecionarPagamento`) is also left out.
- PDO and SQL, table creation, and file I/O (`carregarDados`, `salvarDados`, reading
  and renaming `dados.json`): the store is an in-memory value. The migration receives
  the decoded file, with legacy amounts in whole centavos.
- `carregarQuitados`' `ORDER BY data_quitacao DESC`: the settled-loan listing page is
  not modelled.
- Floating point: SQLite amounts are whole centavos, so the 0.001 tolerance becomes
  exact inequality. JSON amounts are exact rationals.
- `DateTime::diff`'s calendar y/m/d: it is an input (`Calendar.CalendarGap`).
  Time zones and daylight saving time are left out.
- The transaction and rollback machinery: a move and a migration are all-or-nothing
  values. `error_log`, `number_format` and `htmlspecialchars` are left out.
- PDO's exception mode outside the interest run: a failing `execute` throws and
  ends the page. The model returns failure instead. The store is the same either
  way, because each of those writes is a single statement or a transaction.
- quitados.php, resumo_financeiro.php and footer.php: they only render.
- Legacy.AccrueAll: the calendar gap is a function of the last payment date only.
  This holds because one run uses one clock reading.
- Listing.SortByName: the order among equal names is not stated (PHP's `usort` is
  stable only from PHP 8.0).
- Listing.RefreshAndList: one clock reading serves the interest run and every row's
  due-today test. index.php takes a fresh `new DateTime()` for each row (line 37)
  and db.php another for the run, so a listing that spans midnight is not modelled.

## Findings

| source | as written | input that shows it | evidently intended | confidence | as-written member | corrected member |
|---|---|---|---|---|---|---|
| pagamento.php:67-83 | sets `valor_atual` to `valor_inicial` in the array, then saves with `atualizarDevedor`, which never writes `valor_atual` (db.php:234) | a loan owing R$1410.00 on a R$1000.00 principal receives a 'juros' payment; the stored balance stays R$1410.00 | the balance resets to the principal, R$1000.00 | high, not executed | Payment.InterestPaymentKeepsBalance | Payment.IntendedInterestResetsBalance |
| editar.php:64-72 | computes 0 for 'total' and the new principal for 'juros', then saves with `atualizarDevedor`, which drops it | an edit to kind 'juros' with principal R$500.00 of a loan owing R$700.00 leaves R$700.00 | the balance becomes R$500.00 | high, not executed | Edit.SavedEditKeepsBalance | Edit.IntendedEditBalance |

=== FILE: accrual.dfy ===
/**
 * The interest run of db.php (`atualizarJuros`), executed before every listing.
 * For each active loan it multiplies the stored balance by 1.4 once 30 or more
 * whole days separate the clock from the last payment date, then adds a flat R$10
 * when the last payment kind is 'nenhum' and the clock is past that date's
 * midnight; the result is rounded to centavos and written only when a rule fired
 * and the value changed.  Nothing records that a run already happened, so every
 * run re-applies both rules.
 */
module Accrual {
  import opened Wrappers
  import opened Money
  import opened Calendar
  import opened Ledger
  import PaymentKinds

  /** The monthly rule: 30 or more whole days since the last payment. */
  predicate MonthlyRuleFires(row: DebtorRow, now: Instant) {
    WholeDays(row.lastPaymentDate, now) >= 30
  }

  /** The penalty rule: no payment recorded and the clock past the last payment date. */
  predicate PenaltyRuleFires(row: DebtorRow, now: Instant) {
    row.lastKind == PaymentKinds.Tag(PaymentKinds.NoPayment) && IsAfter(now, row.lastPaymentDate)
  }

  /** The computed value before rounding, in mills. */
  function Computed(row: DebtorRow, now: Instant): Mills {
    (if MonthlyRuleFires(row, now) then WithMonthlyInterest(row.balance) else ToMills(row.balance))
    + (if PenaltyRuleFires(row, now) then ToMills(DailyPenalty) else 0)
  }

  /**
   * The decision for one loan: Some(new balance) when the run writes it, None when
   * the record is left alone.
   */
  function Accrue(row: DebtorRow, now: Instant): (w: Option<Cents>)
    ensures w.Some? ==> MonthlyRuleFires(row, now) || PenaltyRuleFires(row, now)
    ensures w.Some? ==> w.value != row.balance
    ensures w.Some? ==> -5 <= Computed(row, now) - ToMills(w.value) <= 5
    ensures w.None? && (MonthlyRuleFires(row, now) || PenaltyRuleFires(row, now)) ==>
              -5 <= Computed(row, now) - ToMills(row.balance) <= 5
  {
    var rounded := RoundToCents(Computed(row, now));
    if (MonthlyRuleFires(row, now) || PenaltyRuleFires(row, now)) && rounded != row.balance
    then Some(rounded)
    else None
  }

  /** The row as the run leaves it. */
  function AccruedRow(row: DebtorRow, now: Instant): (r: DebtorRow)
    ensures r == row.(balance := r.balance)
  {
    match Accrue(row, now)
    case Some(v) => row.(balance := v)
    case None => row
  }

  /**
   * Penalty alone adds exactly R$10, however many days have passed: the
   * days-times-ten figure the code computes is never used.
   */
  lemma PenaltyIsFlat(row: DebtorRow, now: Instant)
    requires PenaltyRuleFires(row, now) && !MonthlyRuleFires(row, now)
    ensures AccruedRow(row, now).balance == row.balance + DailyPenalty
  {
  }

  /** Interest alone multiplies by 1.4 to the nearest centavo. */
  lemma InterestMultiplies(row: DebtorRow, now: Instant)
    requires MonthlyRuleFires(row, now) && !PenaltyRuleFires(row, now)
    ensures -5 <= WithMonthlyInterest(row.balance) - ToMills(AccruedRow(row, now).balance) <= 5
  {
  }

  /** With neither rule firing the balance stays. */
  lemma NoRuleNoChange(row: DebtorRow, now: Instant)
    requires !MonthlyRuleFires(row, now) && !PenaltyRuleFires(row, now)
    ensures AccruedRow(row, now) == row
  {
  }

  /** Both rules: multiply first, then add the flat R$10. */
  lemma BothRules(row: DebtorRow, now: Instant)
    requires MonthlyRuleFires(row, now) && PenaltyRuleFires(row, now)
    ensures AccruedRow(row, now).balance == RoundToCents(WithMonthlyInterest(row.balance)) + DailyPenalty
  {
  }

  /** A non-negative balance never goes down. */
  lemma NeverLowers(row: DebtorRow, now: Instant)
    requires row.balance >= 0
    ensures AccruedRow(row, now).balance >= row.balance
  {
    RoundMonotone(ToMills(row.balance), Computed(row, now));
  }

  /**
   * The write is skipped when 1.4 times the balance rounds back to it: balances of
   * zero or one centavo never grow by interest alone.
   */
  lemma TinyBalancesStay(row: DebtorRow, now: Instant)
    requires MonthlyRuleFires(row, now) && !PenaltyRuleFires(row, now)
    requires 0 <= row.balance <= 1
    ensures Accrue(row, now).None?
  {
  }

  /** From two centavos up, interest alone always writes a larger balance. */
  lemma InterestGrowsFromTwoCentavos(row: DebtorRow, now: Instant)
    requires MonthlyRuleFires(row, now) && !PenaltyRuleFires(row, now)
    requires row.balance >= 2
    ensures Accrue(row, now).Some? && Accrue(row, now).value > row.balance
  {
  }

  /** A second run at the same moment charges the penalty again. */
  lemma PenaltyRepeatsOnRerun(row: DebtorRow, now: Instant)
    requires PenaltyRuleFires(row, now) && !MonthlyRuleFires(row, now)
    ensures AccruedRow(AccruedRow(row, now), now).balance == row.balance + 2 * DailyPenalty
  {
  }

  /** A second run at the same moment multiplies again. */
  lemma InterestRepeatsOnRerun(row: DebtorRow, now: Instant)
    requires MonthlyRuleFires(row, now) && !PenaltyRuleFires(row, now)
    requires row.balance >= 2
    ensures AccruedRow(AccruedRow(row, now), now).balance > AccruedRow(row, now).balance
  {
    InterestGrowsFromTwoCentavos(row, now);
    InterestGrowsFromTwoCentavos(AccruedRow(row, now), now);
  }

  /** The rows the whole run leaves behind, in the same order. */
  function AccruedRows(rows: seq<DebtorRow>, now: Instant): (r: seq<DebtorRow>)
    ensures |r| == |rows|
    ensures forall k :: 0 <= k < |rows| ==> r[k] == AccruedRow(rows[k], now)
  {
    seq(|rows|, k requires 0 <= k < |rows| => AccruedRow(rows[k], now))
  }

  /** The run writes the row at position `at`, so a write that fails there is attempted. */
  predicate WriteFailsAt(rows: seq<DebtorRow>, now: Instant, failAt: Option<nat>) {
    failAt.Some? && failAt.value < |rows| && Accrue(rows[failAt.value], now).Some?
  }

  /**
   * `atualizarJuros`: walks the rows in table order, writing each decided balance
   * through `atualizarValorAtualDevedor`; reports whether anything was written.
   * The connection throws on a storage error and the loop runs outside any
   * transaction, so when the write for the row at position `failAt` fails, the
   * rows before it keep their new balances, the rest stay as they were, and the
   * run does not complete.
   */
  method RunAccrual(db: Db, now: Instant, failAt: Option<nat>) returns (db': Db, updated: bool, completed: bool)
    requires Valid(db)
    ensures completed <==> !WriteFailsAt(db.debtors, now, failAt)
    ensures completed ==> db'.debtors == AccruedRows(db.debtors, now)
    ensures !completed ==>
              db'.debtors == AccruedRows(db.debtors[..failAt.value], now) + db.debtors[failAt.value..]
    ensures db'.settled == db.settled
    ensures db'.nextDebtorId == db.nextDebtorId && db'.nextSettledId == db.nextSettledId
    ensures completed ==> (updated <==> exists k :: 0 <= k < |db.debtors| && Accrue(db.debtors[k], now).Some?)
    ensures Valid(db')
  {
    var rows := db.debtors;
    db' := db;
    updated := false;
    completed := true;
    var i := 0;
    while i < |rows|
      invariant 0 <= i <= |rows|
      invariant Valid(db')
      invariant db'.settled == db.settled
      invariant db'.nextDebtorId == db.nextDebtorId && db'.nextSettledId == db.nextSettledId
      invariant |db'.debtors| == |rows|
      invariant forall k :: 0 <= k < i ==> db'.debtors[k] == AccruedRow(rows[k], now)
      invariant forall k :: i <= k < |rows| ==> db'.debtors[k] == rows[k]
      invariant updated <==> exists k :: 0 <= k < i && Accrue(rows[k], now).Some?
      invariant failAt.Some? && failAt.value < i ==> Accrue(rows[failAt.value], now).None?
    {
      var row := rows[i];
      match Accrue(row, now) {
        case Some(v) =>
          if failAt == Some(i) {
            completed := false;
            assert db'.debtors == AccruedRows(rows[..i], now) + rows[i..];
            return;
          }
          db' := SetBalance(db', row.id, v);
          updated := true;
        case None =>
      }
      i := i + 1;
    }
  }

  /** Over a whole run, no non-negative balance goes down. */
  lemma RunNeverLowers(rows: seq<DebtorRow>, now: Instant)
    ensures forall k :: 0 <= k < |rows| && rows[k].balance >= 0 ==>
              AccruedRows(rows, now)[k].balance >= rows[k].balance
  {
    forall k | 0 <= k < |rows| && rows[k].balance >= 0
      ensures AccruedRows(rows, now)[k].balance >= rows[k].balance
    {
      NeverLowers(rows[k], now);
    }
  }

  /** A run changes only balances: ids, names, dates and kinds are as they were. */
  lemma RunTouchesOnlyBalances(rows: seq<DebtorRow>, now: Instant)
    ensures forall k :: 0 <= k < |rows| ==>
              AccruedRows(rows, now)[k] == rows[k].(balance := AccruedRows(rows, now)[k].balance)
  {
  }

  /** A R$1000 loan lent on 2025-01-01 with no payment. */
  function ExampleLoan(): DebtorRow {
    DebtorRow(1, "Ana", "", "", 100000, 100000, Date(2025, 1, 1), Date(2025, 1, 1), "nenhum")
  }

  /**
   * Thirty days later, at noon, one run yields 1000 x 1.4 + 10 = R$1410.00: the
   * multiplier applies before the flat penalty and the penalty does not scale with
   * the days elapsed.
   */
  lemma ExampleThirtyDays()
    ensures AccruedRow(ExampleLoan(), Instant(Date(2025, 1, 31), TicksPerDay / 2)).balance == 141000
  {
    var now := Instant(Date(2025, 1, 31), TicksPerDay / 2);
    assert DayNumber(Date(2025, 1, 1)) == 20089;
    assert DayNumber(Date(2025, 1, 31)) == 20119;
    WholeDaysForward(Date(2025, 1, 1), now);
    IsAfterByDays(Date(2025, 1, 1), now);
  }
}

=== FILE: calendar.dfy ===
/**
 * Calendar dates and the wall clock.  Dates are stored as 'Y-m-d' text; PHP parses
 * them to midnight, while `new DateTime()` carries the time of day.  Days are
 * numbered by the proleptic Gregorian calendar, day 0 being 1970-01-01.
 */
module Calendar {

  datatype Date = Date(year: int, month: int, day: int)

  /** A moment: a calendar date and the microseconds elapsed since its midnight. */
  datatype Instant = Instant(date: Date, tick: nat)

  /** The calendar difference `DateTime::diff` reports as y, m and d. */
  datatype CalendarGap = CalendarGap(years: nat, months: nat, days: nat)

  const TicksPerDay: nat := 86_400_000_000

  function DaysInMonth(year: int, month: int): int {
    if month == 2 then (if IsLeapYear(year) then 29 else 28)
    else if month == 4 || month == 6 || month == 9 || month == 11 then 30
    else 31
  }

  predicate IsLeapYear(year: int) {
    year % 4 == 0 && (year % 100 != 0 || year % 400 == 0)
  }

  predicate ValidDate(d: Date) {
    1 <= d.month <= 12 && 1 <= d.day <= DaysInMonth(d.year, d.month)
  }

  predicate ValidInstant(t: Instant) {
    ValidDate(t.date) && t.tick < TicksPerDay
  }

  /** The day number of a date (days since 1970-01-01, by the days-from-civil algorithm). */
  function DayNumber(d: Date): int {
    var y := if d.month <= 2 then d.year - 1 else d.year;
    var era := y / 400;
    var yoe := y - era * 400;
    var mp := if d.month > 2 then d.month - 3 else d.month + 9;
    var doy := (153 * mp + 2) / 5 + d.day - 1;
    var doe := yoe * 365 + yoe / 4 - yoe / 100 + doy;
    era * 146097 + doe - 719468
  }

  /** Microseconds from the epoch to the midnight that starts `d`. */
  function Midnight(d: Date): int {
    DayNumber(d) * TicksPerDay
  }

  function Ticks(t: Instant): int {
    Midnight(t.date) + t.tick
  }

  /** `$now > new DateTime($d)`: the moment lies after the midnight starting `d`. */
  predicate IsAfter(now: Instant, d: Date) {
    Ticks(now) > Midnight(d)
  }

  /**
   * `$now->diff(new DateTime($d))->days` (in either direction): the whole days
   * in the absolute distance between the moment and the midnight starting `d`.
   */
  function WholeDays(d: Date, now: Instant): nat {
    var delta := Ticks(now) - Midnight(d);
    (if delta >= 0 then delta else -delta) / TicksPerDay
  }

  /** On or after the date, the distance is the plain difference of day numbers. */
  lemma WholeDaysForward(d: Date, now: Instant)
    requires now.tick < TicksPerDay
    requires DayNumber(now.date) >= DayNumber(d)
    ensures WholeDays(d, now) == DayNumber(now.date) - DayNumber(d)
  {
    var k := DayNumber(now.date) - DayNumber(d);
    assert Ticks(now) - Midnight(d) == k * TicksPerDay + now.tick;
  }

  /**
   * Before the date, the time of day eats into the last day: the distance is one
   * less than the difference of day numbers unless the clock reads exactly midnight.
   */
  lemma WholeDaysBackward(d: Date, now: Instant)
    requires now.tick < TicksPerDay
    requires DayNumber(now.date) < DayNumber(d)
    ensures WholeDays(d, now) == DayNumber(d) - DayNumber(now.date) - (if now.tick > 0 then 1 else 0)
  {
    var k := DayNumber(d) - DayNumber(now.date);
    assert Midnight(d) - Ticks(now) == k * TicksPerDay - now.tick;
    if now.tick > 0 {
      assert Midnight(d) - Ticks(now) == (k - 1) * TicksPerDay + (TicksPerDay - now.tick);
    }
  }

  /** The strict comparison holds on every later day, and on the day itself after midnight. */
  lemma IsAfterByDays(d: Date, now: Instant)
    requires now.tick < TicksPerDay
    ensures IsAfter(now, d) <==>
              DayNumber(now.date) > DayNumber(d) || (DayNumber(now.date) == DayNumber(d) && now.tick > 0)
  {
    var k := DayNumber(now.date) - DayNumber(d);
    assert Ticks(now) - Midnight(d) == k * TicksPerDay + now.tick;
  }

  /** On its own date a moment is less than one day from midnight. */
  lemma WholeDaysSameDate(now: Instant)
    requires now.tick < TicksPerDay
    ensures WholeDays(now.date, now) == 0
  {
    WholeDaysForward(now.date, now);
  }
}

=== FILE: details.dfy ===
/**
 * The details page (detalhes.php): the elapsed-time texts for the loan date and
 * the last payment, and the interest figures shown next to the principal.
 */
module Details {
  import opened Wrappers
  import opened Money
  import opened Calendar
  import opened Text

  const YearsJoin := " ano(s) e "
  const MonthsTail := " mês(es)"
  const MonthsJoin := " mês(es) e "
  const DaysTail := " dia(s)"

  /** The part of a calendar gap the text shows: days are dropped once a year has passed. */
  datatype Shown = YearsMonths(years: nat, months: nat) | MonthsDays(months: nat, days: nat) | DaysOnly(days: nat)

  function ShownPart(g: CalendarGap): Shown {
    if g.years > 0 then YearsMonths(g.years, g.months)
    else if g.months > 0 then MonthsDays(g.months, g.days)
    else DaysOnly(g.days)
  }

  /** The three-way text used for both the time since the loan and since the last payment. */
  function FormatElapsed(g: CalendarGap): string {
    if g.years > 0 then NatToString(g.years) + YearsJoin + NatToString(g.months) + MonthsTail
    else if g.months > 0 then NatToString(g.months) + MonthsJoin + NatToString(g.days) + DaysTail
    else NatToString(g.days) + DaysTail
  }

  /** Reads a text of the three shapes back; None for anything else. */
  function ReadElapsed(t: string): Option<Shown> {
    var (a, r1) := SplitDigits(t);
    if a == [] then None
    else if r1 == DaysTail then Some(DaysOnly(ParseDigits(a)))
    else if |r1| >= |YearsJoin| && r1[..|YearsJoin|] == YearsJoin then
      var (b, r2) := SplitDigits(r1[|YearsJoin|..]);
      if b != [] && r2 == MonthsTail then Some(YearsMonths(ParseDigits(a), ParseDigits(b))) else None
    else if |r1| >= |MonthsJoin| && r1[..|MonthsJoin|] == MonthsJoin then
      var (b, r2) := SplitDigits(r1[|MonthsJoin|..]);
      if b != [] && r2 == DaysTail then Some(MonthsDays(ParseDigits(a), ParseDigits(b))) else None
    else None
  }

  /** A number followed by a separator splits at the separator. */
  lemma SplitNumber(n: nat, rest: string)
    requires rest != [] && rest[0] == ' '
    ensures SplitDigits(NatToString(n) + rest) == (NatToString(n), rest)
  {
    SplitDigitsAt(NatToString(n), rest);
  }

  /** The text determines what it shows: reading it back recovers exactly the shown figures. */
  lemma ReadFormatRoundTrip(g: CalendarGap)
    ensures ReadElapsed(FormatElapsed(g)) == Some(ShownPart(g))
  {
    var t := FormatElapsed(g);
    if g.years > 0 {
      var tail := NatToString(g.months) + MonthsTail;
      assert t == NatToString(g.years) + (YearsJoin + tail);
      SplitNumber(g.years, YearsJoin + tail);
      var r1 := YearsJoin + tail;
      assert r1 != DaysTail by { assert r1[1] != DaysTail[1]; }
      assert r1[..|YearsJoin|] == YearsJoin;
      assert r1[|YearsJoin|..] == tail;
      SplitNumber(g.months, MonthsTail);
      ParseNatToString(g.years);
      ParseNatToString(g.months);
    } else if g.months > 0 {
      var tail := NatToString(g.days) + DaysTail;
      assert t == NatToString(g.months) + (MonthsJoin + tail);
      SplitNumber(g.months, MonthsJoin + tail);
      var r1 := MonthsJoin + tail;
      assert r1 != DaysTail by { assert r1[1] != DaysTail[1]; }
      assert r1[..|YearsJoin|] != YearsJoin by { assert r1[1] != YearsJoin[1]; }
      assert r1[..|MonthsJoin|] == MonthsJoin;
      assert r1[|MonthsJoin|..] == tail;
      SplitNumber(g.days, DaysTail);
      ParseNatToString(g.months);
      ParseNatToString(g.days);
    } else {
      SplitNumber(g.days, DaysTail);
      ParseNatToString(g.days);
    }
  }

  /** Two gaps get the same text exactly when they show the same figures. */
  lemma FormatElapsedInjective(g: CalendarGap, h: CalendarGap)
    ensures FormatElapsed(g) == FormatElapsed(h) <==> ShownPart(g) == ShownPart(h)
  {
    ReadFormatRoundTrip(g);
    ReadFormatRoundTrip(h);
  }

  /** The figures of the page, in mills. */
  datatype Figures = Figures(withInterest: Mills, interest: Mills, percent: Option<real>)

  /**
   * `$valorComJuros`, `$valorJuros` and `$percentualJuros`.  A zero principal
   * makes the percentage a division by zero, which PHP raises as an error.
   */
  function DetailFigures(principal: Cents): (f: Figures)
    ensures f.interest == MonthlyInterest(principal)
    ensures f.withInterest == ToMills(principal) + MonthlyInterest(principal)
    ensures f.percent.Some? <==> principal != 0
    ensures f.percent.Some? ==> f.percent.value == 40.0
  {
    var withInterest := WithMonthlyInterest(principal);
    var interest := withInterest - ToMills(principal);
    var base := ToMills(principal) as real;
    var percent := if principal == 0 then None else Some((interest as real) / base * 100.0);
    assert principal != 0 ==> (interest as real) / base == 0.4 by {
      if principal != 0 {
        assert interest as real == 0.4 * base;
        assert 0.4 * base / base == 0.4;
      }
    }
    Figures(withInterest, interest, percent)
  }
}

=== FILE: edit.dfy ===
/**
 * The edit page (editar.php).  It validates the posted fields, persists them
 * through `atualizarDevedor` (the kind exactly as posted, with no check against
 * the three known kinds) and, for kind 'total', moves the loan to `quitados`.
 * The page computes a new balance (0 for 'total', the new principal for 'juros',
 * otherwise the old balance) that `atualizarDevedor` never writes.
 */
module Edit {
  import opened Wrappers
  import opened Money
  import opened Calendar
  import opened Text
  import opened Ledger
  import PaymentKinds

  /** The posted edit form; the principal as `floatval` produced it, empty dates as None. */
  datatype EditForm = EditForm(
    name: string,
    phone: string,
    address: string,
    principal: Cents,
    loanDate: Option<Date>,
    lastPaymentDate: Option<Date>,
    kindText: string)

  datatype EditOutcome =
    | Redirected              // no id, or no such debtor
    | FormShown               // nothing posted
    | Rejected                // a required field is missing or the principal is not positive
    | Saved                   // updated; the loan stays active
    | SettledAndRedirected    // updated with kind 'total' and moved to `quitados`
    | StorageError            // the update failed

  predicate Acceptable(form: EditForm) {
    !IsPhpEmpty(Trim(form.name)) && form.principal > 0 && form.loanDate.Some? && form.lastPaymentDate.Some?
  }

  /** The balance the page computes (and does not persist). */
  function IntendedBalance(form: EditForm, previous: Cents): Cents {
    if form.kindText == "total" then 0
    else if form.kindText == "juros" then form.principal
    else previous
  }

  /** The array the page hands to `atualizarDevedor`. */
  function EditedFields(form: EditForm, previous: Cents): DebtorFields
    requires form.loanDate.Some? && form.lastPaymentDate.Some?
  {
    DebtorFields(Trim(form.name), Some(Trim(form.phone)), Some(Trim(form.address)), form.principal,
                 IntendedBalance(form, previous), form.loanDate.value, form.lastPaymentDate.value, form.kindText)
  }

  /** The edit handler as written (editar.php lines 19-88). */
  function HandleEdit(db: Db, id: Option<int>, form: Option<EditForm>, today: Date,
                      updateFault: bool, moveFault: bool): (r: (Db, EditOutcome))
    ensures id.None? || !HasDebtor(db, id.value) ==> r == (db, Redirected)
    ensures r.1.Rejected? <==> id.Some? && HasDebtor(db, id.value) && form.Some? && !Acceptable(form.value)
    ensures r.1.Redirected? || r.1.FormShown? || r.1.Rejected? || r.1.StorageError? ==> r.0 == db
    ensures r.1.StorageError? <==>
              id.Some? && HasDebtor(db, id.value) && form.Some? && Acceptable(form.value) && updateFault
    ensures r.1.SettledAndRedirected? <==>
              id.Some? && HasDebtor(db, id.value) && form.Some? && Acceptable(form.value) &&
              form.value.kindText == "total" && !updateFault && !moveFault
    ensures r.1.SettledAndRedirected? ==>
              && id.Some? && form.Some? && Acceptable(form.value) && FindDebtor(db, id.value).Some?
              && !HasDebtor(r.0, id.value)
              && |r.0.settled| == |db.settled| + 1
              && r.0.settled[..|db.settled|] == db.settled
              && r.0.settled[|db.settled|] ==
                   SettledCopy(db.nextSettledId, Overwrite(FindDebtor(db, id.value).value, EditedFields(form.value, 0)), today)
              && (forall x :: x in db.debtors && x.id != id.value ==> x in r.0.debtors)
              && (forall x :: x in r.0.debtors ==> x in db.debtors)
              && (Valid(db) ==> |r.0.debtors| == |db.debtors| - 1)
    ensures r.1.Saved? ==>
              id.Some? && form.Some? && Acceptable(form.value) &&
              r.0 == UpdateDebtor(db, id.value, EditedFields(form.value, 0), false).0
    ensures Valid(db) ==> Valid(r.0)
  {
    if id.None? || FindDebtor(db, id.value).None? then (db, Redirected)
    else if form.None? then (db, FormShown)
    else
      var row := FindDebtor(db, id.value).value;
      var fm := form.value;
      if !Acceptable(fm) then (db, Rejected)
      else
        assert EditedFields(fm, row.balance) == EditedFields(fm, 0).(balance := IntendedBalance(fm, row.balance));
        UpdateIgnoresBalance(db, id.value, EditedFields(fm, 0), IntendedBalance(fm, row.balance), updateFault);
        var (db1, ok) := UpdateDebtor(db, id.value, EditedFields(fm, row.balance), updateFault);
        if !ok then (db1, StorageError)
        else if fm.kindText == "total" then
          var (db2, moved) := MoveToSettled(db1, id.value, today, moveFault);
          assert FindDebtor(db1, id.value) == Some(Overwrite(row, EditedFields(fm, 0))) by {
            IndexOfSameIds(db.debtors, db1.debtors, id.value);
          }
          UpdateThenMoveKeepsOthers(db, id.value, EditedFields(fm, 0), today);
          if moved then (db2, SettledAndRedirected) else (db1, Saved)
        else (db1, Saved)
  }

  /**
   * As written, a saved edit stores the posted kind verbatim and leaves the balance
   * as it was, whatever kind was posted; only the edited columns change.
   */
  lemma SavedEditKeepsBalance(db: Db, id: int, form: EditForm, today: Date, moveFault: bool)
    requires Valid(db) && HasDebtor(db, id)
    requires Acceptable(form) && (form.kindText == "total" ==> moveFault)
    ensures var before := FindDebtor(db, id).value;
            var after := HandleEdit(db, Some(id), Some(form), today, false, moveFault).0;
            && FindDebtor(after, id).Some?
            && FindDebtor(after, id).value.balance == before.balance
            && FindDebtor(after, id).value.lastKind == form.kindText
            && FindDebtor(after, id).value.name == Trim(form.name)
            && FindDebtor(after, id).value.principal == form.principal
  {
    UpdateThenFind(db, id, EditedFields(form, 0));
  }

  /**
   * The kind text is not checked: an edit can store any kind, even one no other
   * page recognises, and such an edit is saved without moving the loan.
   */
  lemma EditStoresUnknownKind(db: Db, id: int, form: EditForm, today: Date, moveFault: bool)
    requires Valid(db) && HasDebtor(db, id)
    requires Acceptable(form) && PaymentKinds.Parse(form.kindText).None?
    ensures var after := HandleEdit(db, Some(id), Some(form), today, false, moveFault);
            after.1.Saved? && FindDebtor(after.0, id).Some? && FindDebtor(after.0, id).value.lastKind == form.kindText
  {
    assert form.kindText != "total" by {
      assert PaymentKinds.Parse("total") == Some(PaymentKinds.Full);
    }
    UpdateThenFind(db, id, EditedFields(form, 0));
  }

  /** The edit handler as intended: the same steps, then the computed balance is written while the loan is active. */
  function HandleEditIntended(db: Db, id: Option<int>, form: Option<EditForm>, today: Date,
                              updateFault: bool, moveFault: bool): (r: (Db, EditOutcome))
    ensures r.1 == HandleEdit(db, id, form, today, updateFault, moveFault).1
    ensures !r.1.Saved? ==> r.0 == HandleEdit(db, id, form, today, updateFault, moveFault).0
    ensures r.1.Saved? ==>
              && id.Some? && form.Some? && FindDebtor(db, id.value).Some?
              && FindDebtor(r.0, id.value).Some?
              && FindDebtor(r.0, id.value).value.balance ==
                   IntendedBalance(form.value, FindDebtor(db, id.value).value.balance)
              && FindDebtor(r.0, id.value).value ==
                   FindDebtor(HandleEdit(db, id, form, today, updateFault, moveFault).0, id.value).value
                     .(balance := FindDebtor(r.0, id.value).value.balance)
    ensures Valid(db) ==> Valid(r.0)
  {
    var (db1, outcome) := HandleEdit(db, id, form, today, updateFault, moveFault);
    if outcome.Saved? then
      var row := FindDebtor(db, id.value).value;
      assert HasDebtor(db1, id.value) by {
        var i := IndexOf(db.debtors, id.value).value;
        assert db1.debtors[i].id == id.value;
      }
      SetBalanceThenFind(db1, id.value, IntendedBalance(form.value, row.balance));
      (SetBalance(db1, id.value, IntendedBalance(form.value, row.balance)), outcome)
    else (db1, outcome)
  }

  /**
   * Intended behaviour: after a saved edit the balance is 0 for 'total' (a move
   * that failed), the new principal for 'juros', and unchanged otherwise.
   */
  lemma IntendedEditBalance(db: Db, id: int, form: EditForm, today: Date, moveFault: bool)
    requires Valid(db) && HasDebtor(db, id)
    requires Acceptable(form) && (form.kindText == "total" ==> moveFault)
    ensures var before := FindDebtor(db, id).value;
            var after := HandleEditIntended(db, Some(id), Some(form), today, false, moveFault).0;
            && FindDebtor(after, id).Some?
            && FindDebtor(after, id).value.balance ==
                 (if form.kindText == "total" then 0
                  else if form.kindText == "juros" then form.principal
                  else before.balance)
            && FindDebtor(after, id).value.lastKind == form.kindText
  {
    var before := FindDebtor(db, id).value;
    var i := IndexOf(db.debtors, id).value;
    UpdateIsPointwise(db, id, EditedFields(form, 0));
    var mid := HandleEdit(db, Some(id), Some(form), today, false, moveFault).0;
    IndexOfUnique(mid.debtors, i);
    SetBalanceIsPointwise(mid, id, IntendedBalance(form, before.balance));
    var after := SetBalance(mid, id, IntendedBalance(form, before.balance));
    IndexOfUnique(after.debtors, i);
  }
}

=== FILE: kinds.dfy ===
/** The payment kinds stored in `ultimo_pagamento`: 'total', 'juros' and 'nenhum'. */
module PaymentKinds {
  import opened Wrappers

  datatype PaymentKind = Full | InterestOnly | NoPayment

  /** The text stored for each kind. */
  function Tag(k: PaymentKind): string {
    match k
    case Full => "total"
    case InterestOnly => "juros"
    case NoPayment => "nenhum"
  }

  /** Recognises a stored or submitted kind; any other text is not a kind. */
  function Parse(s: string): (r: Option<PaymentKind>)
    ensures r.Some? ==> Tag(r.value) == s
    ensures forall k :: Tag(k) == s ==> r == Some(k)
  {
    if s == "total" then Some(Full)
    else if s == "juros" then Some(InterestOnly)
    else if s == "nenhum" then Some(NoPayment)
    else None
  }
}

=== FILE: ledger.dfy ===
/**
 * The SQLite store of db.php: the `devedores` table of active loans and the
 * `quitados` table of settled ones.  Each table is a sequence of rows in rowid
 * order (the order `SELECT *` returns them), with its AUTOINCREMENT counter.
 */
module Ledger {
  import opened Wrappers
  import opened Money
  import opened Calendar
  import PaymentKinds

  /** A row of `devedores`. */
  datatype DebtorRow = DebtorRow(
    id: int,
    name: string,
    phone: string,
    address: string,
    principal: Cents,        // valor_inicial
    balance: Cents,          // valor_atual
    loanDate: Date,          // data_emprestimo
    lastPaymentDate: Date,   // data_ultimo_pagamento
    lastKind: string)        // ultimo_pagamento

  /** A row of `quitados`. */
  datatype SettledRow = SettledRow(
    id: int,
    name: string,
    phone: string,
    address: string,
    principal: Cents,
    loanDate: Date,
    settledOn: Date)         // data_quitacao

  /** The associative array a page hands to `adicionarDevedor` or `atualizarDevedor`. */
  datatype DebtorFields = DebtorFields(
    name: string,
    phone: Option<string>,   // None: the key is unset
    address: Option<string>,
    principal: Cents,
    balance: Cents,
    loanDate: Date,
    lastPaymentDate: Date,
    lastKind: string)

  datatype Db = Db(debtors: seq<DebtorRow>, settled: seq<SettledRow>, nextDebtorId: int, nextSettledId: int)

  predicate DebtorIdsAscending(rows: seq<DebtorRow>) {
    forall i, j :: 0 <= i < j < |rows| ==> rows[i].id < rows[j].id
  }

  predicate SettledIdsAscending(rows: seq<SettledRow>) {
    forall i, j :: 0 <= i < j < |rows| ==> rows[i].id < rows[j].id
  }

  /** The table invariants: ids are positive, unique, in rowid order and below the counters. */
  predicate Valid(db: Db) {
    && 1 <= db.nextDebtorId
    && 1 <= db.nextSettledId
    && DebtorIdsAscending(db.debtors)
    && SettledIdsAscending(db.settled)
    && (forall k :: 0 <= k < |db.debtors| ==> 1 <= db.debtors[k].id < db.nextDebtorId)
    && (forall k :: 0 <= k < |db.settled| ==> 1 <= db.settled[k].id < db.nextSettledId)
  }

  predicate HasDebtor(db: Db, id: int) {
    exists k :: 0 <= k < |db.debtors| && db.debtors[k].id == id
  }

  /** The position of the first row with the given id. */
  function IndexOf(rows: seq<DebtorRow>, id: int): (r: Option<nat>)
    ensures r.Some? ==> r.value < |rows| && rows[r.value].id == id
    ensures r.Some? ==> forall k :: 0 <= k < r.value ==> rows[k].id != id
    ensures r.None? ==> forall k :: 0 <= k < |rows| ==> rows[k].id != id
  {
    if rows == [] then None
    else if rows[0].id == id then Some(0)
    else match IndexOf(rows[1..], id)
      case None => None
      case Some(i) => Some(i + 1)
  }

  /** `buscarDevedor`: the row with the id, or null. */
  function FindDebtor(db: Db, id: int): (r: Option<DebtorRow>)
    ensures r.Some? ==> r.value in db.debtors && r.value.id == id
    ensures r.None? <==> !HasDebtor(db, id)
  {
    match IndexOf(db.debtors, id)
    case Some(i) => Some(db.debtors[i])
    case None => None
  }

  /** `INSERT INTO devedores`: appends the row under the next AUTOINCREMENT id. */
  function InsertDebtor(db: Db, row: DebtorRow): (r: Db)
    ensures r.debtors == db.debtors + [row.(id := db.nextDebtorId)]
    ensures r.settled == db.settled && r.nextSettledId == db.nextSettledId
    ensures r.nextDebtorId == db.nextDebtorId + 1
    ensures Valid(db) ==> Valid(r) && !HasDebtor(db, db.nextDebtorId)
  {
    db.(debtors := db.debtors + [row.(id := db.nextDebtorId)], nextDebtorId := db.nextDebtorId + 1)
  }

  /** `INSERT INTO quitados`: appends the row under the next AUTOINCREMENT id. */
  function InsertSettled(db: Db, row: SettledRow): (r: Db)
    ensures r.settled == db.settled + [row.(id := db.nextSettledId)]
    ensures r.debtors == db.debtors && r.nextDebtorId == db.nextDebtorId
    ensures r.nextSettledId == db.nextSettledId + 1
    ensures Valid(db) ==> Valid(r)
  {
    db.(settled := db.settled + [row.(id := db.nextSettledId)], nextSettledId := db.nextSettledId + 1)
  }

  /** The row `adicionarDevedor` builds from the array (its id is assigned on insert). */
  function NewRow(f: DebtorFields): DebtorRow {
    DebtorRow(0, f.name, f.phone.GetOr(""), f.address.GetOr(""), f.principal,
              f.principal, f.loanDate, f.loanDate, PaymentKinds.Tag(PaymentKinds.NoPayment))
  }

  /**
   * `adicionarDevedor`: appends a row under a fresh id and returns the id.  The
   * balance starts at the principal, the last payment at the loan date and the
   * kind at 'nenhum', whatever the array says for those keys.
   */
  function AddDebtor(db: Db, f: DebtorFields): (r: (Db, int))
    ensures r.0.settled == db.settled && r.0.nextSettledId == db.nextSettledId
    ensures |r.0.debtors| == |db.debtors| + 1 && r.0.debtors[..|db.debtors|] == db.debtors
    ensures var row := r.0.debtors[|db.debtors|];
      && row.id == r.1
      && row.name == f.name
      && row.phone == (if f.phone.Some? then f.phone.value else "")
      && row.address == (if f.address.Some? then f.address.value else "")
      && row.principal == f.principal
      && row.balance == f.principal
      && row.loanDate == f.loanDate
      && row.lastPaymentDate == f.loanDate
      && row.lastKind == "nenhum"
    ensures Valid(db) ==> Valid(r.0) && !HasDebtor(db, r.1) && FindDebtor(r.0, r.1) == Some(r.0.debtors[|db.debtors|])
  {
    var db' := InsertDebtor(db, NewRow(f));
    assert db'.debtors[..|db.debtors|] == db.debtors;
    (db', db.nextDebtorId)
  }

  /** The columns `atualizarDevedor` writes; `valor_atual` is not among them. */
  function Overwrite(row: DebtorRow, f: DebtorFields): DebtorRow {
    row.(name := f.name, phone := f.phone.GetOr(""), address := f.address.GetOr(""),
         principal := f.principal, loanDate := f.loanDate,
         lastPaymentDate := f.lastPaymentDate, lastKind := f.lastKind)
  }

  /**
   * `atualizarDevedor`: `UPDATE ... WHERE id = :id` over every column but the
   * balance.  It reports success even when no row has the id; a storage fault
   * leaves the table as it was and reports failure.
   */
  function UpdateDebtor(db: Db, id: int, f: DebtorFields, fault: bool): (r: (Db, bool))
    ensures r.1 == !fault
    ensures r.0.settled == db.settled
    ensures r.0.nextDebtorId == db.nextDebtorId && r.0.nextSettledId == db.nextSettledId
    ensures |r.0.debtors| == |db.debtors|
    ensures forall k :: 0 <= k < |db.debtors| ==>
              && r.0.debtors[k].id == db.debtors[k].id
              && r.0.debtors[k].balance == db.debtors[k].balance
    ensures forall k :: 0 <= k < |db.debtors| && (fault || db.debtors[k].id != id) ==>
              r.0.debtors[k] == db.debtors[k]
    ensures forall k :: 0 <= k < |db.debtors| && !fault && db.debtors[k].id == id ==>
              && r.0.debtors[k].name == f.name
              && r.0.debtors[k].phone == (if f.phone.Some? then f.phone.value else "")
              && r.0.debtors[k].address == (if f.address.Some? then f.address.value else "")
              && r.0.debtors[k].principal == f.principal
              && r.0.debtors[k].loanDate == f.loanDate
              && r.0.debtors[k].lastPaymentDate == f.lastPaymentDate
              && r.0.debtors[k].lastKind == f.lastKind
    ensures Valid(db) ==> Valid(r.0)
  {
    if fault then (db, false)
    else
      var rows := seq(|db.debtors|, k requires 0 <= k < |db.debtors| =>
                        if db.debtors[k].id == id then Overwrite(db.debtors[k], f) else db.debtors[k]);
      (db.(debtors := rows), true)
  }

  /** `atualizarValorAtualDevedor`: sets the balance of the row with the id and nothing else. */
  function SetBalance(db: Db, id: int, v: Cents): (r: Db)
    ensures r.settled == db.settled
    ensures r.nextDebtorId == db.nextDebtorId && r.nextSettledId == db.nextSettledId
    ensures |r.debtors| == |db.debtors|
    ensures forall k :: 0 <= k < |db.debtors| && db.debtors[k].id != id ==> r.debtors[k] == db.debtors[k]
    ensures forall k :: 0 <= k < |db.debtors| && db.debtors[k].id == id ==>
              r.debtors[k] == db.debtors[k].(balance := v)
    ensures Valid(db) ==> Valid(r)
  {
    var rows := seq(|db.debtors|, k requires 0 <= k < |db.debtors| =>
                      if db.debtors[k].id == id then db.debtors[k].(balance := v) else db.debtors[k]);
    db.(debtors := rows)
  }

  /** `DELETE FROM devedores WHERE id = :id`. */
  function RemoveId(rows: seq<DebtorRow>, id: int): (r: seq<DebtorRow>)
    ensures forall x :: x in r <==> x in rows && x.id != id
    ensures |r| <= |rows|
    ensures DebtorIdsAscending(rows) ==> DebtorIdsAscending(r)
  {
    if rows == [] then []
    else if rows[0].id == id then RemoveId(rows[1..], id)
    else
      var tail := RemoveId(rows[1..], id);
      assert forall x :: x in tail ==> x in rows[1..];
      [rows[0]] + tail
  }

  /** With unique ids the delete removes exactly the one row, keeping the others in order. */
  lemma {:induction false} RemoveIdSplices(rows: seq<DebtorRow>, i: nat)
    requires DebtorIdsAscending(rows)
    requires i < |rows|
    ensures RemoveId(rows, rows[i].id) == rows[..i] + rows[i + 1..]
  {
    if i == 0 {
      assert rows[1..] == rows[..0] + rows[1..];
      assert forall x :: x in rows[1..] ==> x.id != rows[0].id;
      RemoveIdNone(rows[1..], rows[0].id);
    } else {
      RemoveIdSplices(rows[1..], i - 1);
      assert rows[1..][i - 1] == rows[i];
      assert rows[..i] + rows[i + 1..] == [rows[0]] + (rows[1..][..i - 1] + rows[1..][i..]);
    }
  }

  /** Deleting an id no row has changes nothing. */
  lemma {:induction false} RemoveIdNone(rows: seq<DebtorRow>, id: int)
    requires forall x :: x in rows ==> x.id != id
    ensures RemoveId(rows, id) == rows
  {
    if rows != [] {
      RemoveIdNone(rows[1..], id);
      assert [rows[0]] + rows[1..] == rows;
    }
  }

  /** The `quitados` row a settlement on `today` creates from a debtor row, under the given id. */
  function SettledCopy(id: int, d: DebtorRow, today: Date): SettledRow {
    SettledRow(id, d.name, d.phone, d.address, d.principal, d.loanDate, today)
  }

  /**
   * `moverParaQuitados`: inside one transaction, inserts a copy of the debtor into
   * `quitados` (under a fresh `quitados` id, settled `today`) and deletes it from
   * `devedores`.  An unknown id, or a fault that rolls the transaction back, leaves
   * both tables as they were and reports failure.
   */
  function MoveToSettled(db: Db, id: int, today: Date, fault: bool): (r: (Db, bool))
    ensures r.1 <==> HasDebtor(db, id) && !fault
    ensures !r.1 ==> r.0 == db
    ensures r.1 ==> !HasDebtor(r.0, id)
    ensures r.1 ==> |r.0.settled| == |db.settled| + 1 && r.0.settled[..|db.settled|] == db.settled
    ensures r.1 ==> FindDebtor(db, id).Some? &&
                    r.0.settled[|db.settled|] == SettledCopy(db.nextSettledId, FindDebtor(db, id).value, today)
    ensures r.1 ==> forall x :: x in db.debtors && x.id != id ==> x in r.0.debtors
    ensures r.1 ==> forall x :: x in r.0.debtors ==> x in db.debtors
    ensures Valid(db) ==> Valid(r.0)
    ensures Valid(db) && r.1 ==> |r.0.debtors| == |db.debtors| - 1
  {
    match IndexOf(db.debtors, id)
    case None => (db, false)
    case Some(i) =>
      if fault then (db, false)
      else
        var d := db.debtors[i];
        var db' := InsertSettled(db, SettledCopy(0, d, today)).(debtors := RemoveId(db.debtors, id));
        assert db'.settled[..|db.settled|] == db.settled;
        assert Valid(db) ==> db'.debtors == db.debtors[..i] + db.debtors[i + 1..] by {
          if Valid(db) {
            RemoveIdSplices(db.debtors, i);
          }
        }
        (db', true)
  }

  /** A successful move deletes the debtor's row at its position and keeps the rest in order. */
  lemma MoveSplicesDebtors(db: Db, id: int, today: Date)
    requires Valid(db) && HasDebtor(db, id)
    ensures IndexOf(db.debtors, id).Some?
    ensures var i := IndexOf(db.debtors, id).value;
            MoveToSettled(db, id, today, false).0.debtors == db.debtors[..i] + db.debtors[i + 1..]
  {
    RemoveIdSplices(db.debtors, IndexOf(db.debtors, id).value);
  }

  /** Update then lookup: the row found carries the new fields and the old balance. */
  lemma UpdateThenFind(db: Db, id: int, f: DebtorFields)
    requires Valid(db) && HasDebtor(db, id)
    ensures var found := FindDebtor(UpdateDebtor(db, id, f, false).0, id);
            found.Some? && found.value == Overwrite(FindDebtor(db, id).value, f)
  {
    var i := IndexOf(db.debtors, id).value;
    var db' := UpdateDebtor(db, id, f, false).0;
    assert IndexOf(db'.debtors, id) == Some(i) by {
      IndexOfUnique(db'.debtors, i);
    }
  }

  /** With unique ids, the first index of a row's id is the row's own position. */
  lemma IndexOfUnique(rows: seq<DebtorRow>, i: nat)
    requires DebtorIdsAscending(rows) && i < |rows|
    ensures IndexOf(rows, rows[i].id) == Some(i)
  {
  }

  /** With unique ids an update rewrites exactly the row at the id's position. */
  lemma UpdateIsPointwise(db: Db, id: int, f: DebtorFields)
    requires Valid(db) && HasDebtor(db, id)
    ensures IndexOf(db.debtors, id).Some?
    ensures var i := IndexOf(db.debtors, id).value;
            UpdateDebtor(db, id, f, false).0.debtors == db.debtors[i := Overwrite(db.debtors[i], f)]
  {
  }

  /** With unique ids a balance write changes exactly the row at the id's position. */
  lemma SetBalanceIsPointwise(db: Db, id: int, v: Cents)
    requires Valid(db) && HasDebtor(db, id)
    ensures IndexOf(db.debtors, id).Some?
    ensures var i := IndexOf(db.debtors, id).value;
            SetBalance(db, id, v).debtors == db.debtors[i := db.debtors[i].(balance := v)]
  {
  }

  /** The first index of an id depends only on the ids of the rows. */
  lemma {:induction false} IndexOfSameIds(a: seq<DebtorRow>, b: seq<DebtorRow>, id: int)
    requires |a| == |b| && forall k :: 0 <= k < |a| ==> a[k].id == b[k].id
    ensures IndexOf(a, id) == IndexOf(b, id)
  {
    if a != [] {
      IndexOfSameIds(a[1..], b[1..], id);
    }
  }

  /** After a balance write, the row found under the id is the old one with the new balance. */
  lemma SetBalanceThenFind(db: Db, id: int, v: Cents)
    requires HasDebtor(db, id)
    ensures FindDebtor(SetBalance(db, id, v), id) == Some(FindDebtor(db, id).value.(balance := v))
  {
    IndexOfSameIds(db.debtors, SetBalance(db, id, v).debtors, id);
  }

  /**
   * Overwriting a debtor and then moving it to `quitados` keeps every other debtor
   * row as it was, and brings in no row the table did not hold before.
   */
  lemma UpdateThenMoveKeepsOthers(db: Db, id: int, f: DebtorFields, today: Date)
    requires HasDebtor(db, id)
    ensures var m := MoveToSettled(UpdateDebtor(db, id, f, false).0, id, today, false);
            && m.1
            && (forall x :: x in db.debtors && x.id != id ==> x in m.0.debtors)
            && (forall x :: x in m.0.debtors ==> x in db.debtors)
            && (Valid(db) ==> |m.0.debtors| == |db.debtors| - 1)
  {
    var db1 := UpdateDebtor(db, id, f, false).0;
    assert HasDebtor(db1, id) by {
      var i := IndexOf(db.debtors, id).value;
      assert db1.debtors[i].id == id;
    }
    forall x | x in db.debtors && x.id != id
      ensures x in db1.debtors
    {
      var k :| 0 <= k < |db.debtors| && db.debtors[k] == x;
      assert db1.debtors[k] == x;
    }
    forall x | x in db1.debtors && x.id != id
      ensures x in db.debtors
    {
      var k :| 0 <= k < |db1.debtors| && db1.debtors[k] == x;
      assert db.debtors[k] == x;
    }
  }

  /** `atualizarDevedor` ignores the balance in the array it is given. */
  lemma UpdateIgnoresBalance(db: Db, id: int, f: DebtorFields, v: Cents, fault: bool)
    ensures UpdateDebtor(db, id, f.(balance := v), fault) == UpdateDebtor(db, id, f, fault)
  {
    var a := UpdateDebtor(db, id, f.(balance := v), fault).0;
    var b := UpdateDebtor(db, id, f, fault).0;
    assert a.debtors == b.debtors;
  }
}

=== FILE: legacy.dfy ===
/**
 * The earlier JSON-file back end (funcoes.php): debtors and settled loans kept as
 * PHP lists, looked up by strict (`===`) id comparison.  Its amounts are never
 * rounded, so they are exact rationals here.
 */
module Legacy {
  import opened Wrappers
  import opened Calendar
  import PaymentKinds

  /** A JSON id: strict comparison tells the string "7" from the number 7. */
  datatype JsonId = TextId(text: string) | NumberId(number: int)

  datatype LegacyDebtor = LegacyDebtor(
    id: JsonId,
    name: string,
    phone: string,
    address: string,
    principal: real,
    balance: real,
    loanDate: Date,
    lastPaymentDate: Date,
    lastUpdate: Option<Date>,   // data_ultima_atualizacao; None when the key is absent
    lastKind: string)

  /** A settled entry: the debtor's array with `data_quitacao` added. */
  datatype LegacySettled = LegacySettled(debtor: LegacyDebtor, settledOn: Date)

  datatype LegacyData = LegacyData(debtors: seq<LegacyDebtor>, settled: seq<LegacySettled>)

  /** The position of the first entry whose id is strictly equal to `id`. */
  function FirstIndex(s: seq<LegacyDebtor>, id: JsonId): (r: Option<nat>)
    ensures r.Some? ==> r.value < |s| && s[r.value].id == id
    ensures r.Some? ==> forall k :: 0 <= k < r.value ==> s[k].id != id
    ensures r.None? ==> forall k :: 0 <= k < |s| ==> s[k].id != id
  {
    if s == [] then None
    else if s[0].id == id then Some(0)
    else match FirstIndex(s[1..], id)
      case None => None
      case Some(i) => Some(i + 1)
  }

  /** `buscarDevedorPorId`: the first entry with the id, or null. */
  function FindById(s: seq<LegacyDebtor>, id: JsonId): (r: Option<LegacyDebtor>)
    ensures r.None? <==> forall k :: 0 <= k < |s| ==> s[k].id != id
    ensures r.Some? ==> exists i :: 0 <= i < |s| && s[i] == r.value && r.value.id == id &&
                          forall k :: 0 <= k < i ==> s[k].id != id
  {
    match FirstIndex(s, id)
    case Some(i) => Some(s[i])
    case None => None
  }

  /**
   * `atualizarDevedor`: replaces the first entry with the record's id by the record,
   * in place; false and no change when the id is absent.
   */
  function UpdateEntry(s: seq<LegacyDebtor>, updated: LegacyDebtor): (r: (seq<LegacyDebtor>, bool))
    ensures |r.0| == |s|
    ensures r.1 <==> exists k :: 0 <= k < |s| && s[k].id == updated.id
    ensures !r.1 ==> r.0 == s
    ensures r.1 ==> exists i :: 0 <= i < |s| && s[i].id == updated.id && r.0 == s[i := updated] &&
                       forall k :: 0 <= k < i ==> s[k].id != updated.id
  {
    match FirstIndex(s, updated.id)
    case Some(i) => (s[i := updated], true)
    case None => (s, false)
  }

  /** After an update, a lookup of the id returns the new record. */
  lemma UpdateThenFind(s: seq<LegacyDebtor>, updated: LegacyDebtor)
    requires UpdateEntry(s, updated).1
    ensures FindById(UpdateEntry(s, updated).0, updated.id) == Some(updated)
  {
    var i := FirstIndex(s, updated.id).value;
    assert FirstIndex(s[i := updated], updated.id) == Some(i) by {
      FirstIndexUnique(s[i := updated], updated.id, i);
    }
  }

  lemma FirstIndexUnique(s: seq<LegacyDebtor>, id: JsonId, i: nat)
    requires i < |s| && s[i].id == id && forall k :: 0 <= k < i ==> s[k].id != id
    ensures FirstIndex(s, id) == Some(i)
  {
  }

  /**
   * `moverParaQuitados`: the first entry with the id is appended to the settled
   * list stamped with `today` and spliced out of the debtors list; false and no
   * change when the id is absent.
   */
  function MoveToSettled(data: LegacyData, id: JsonId, today: Date): (r: (LegacyData, bool))
    ensures r.1 <==> exists k :: 0 <= k < |data.debtors| && data.debtors[k].id == id
    ensures !r.1 ==> r.0 == data
    ensures r.1 ==> |r.0.debtors| == |data.debtors| - 1 && |r.0.settled| == |data.settled| + 1
    ensures r.1 ==> exists i :: 0 <= i < |data.debtors| && data.debtors[i].id == id &&
                       (forall k :: 0 <= k < i ==> data.debtors[k].id != id) &&
                       r.0.debtors == data.debtors[..i] + data.debtors[i + 1..] &&
                       r.0.settled == data.settled + [LegacySettled(data.debtors[i], today)]
    ensures r.1 ==> multiset(r.0.debtors) + multiset{r.0.settled[|data.settled|].debtor} == multiset(data.debtors)
  {
    match FirstIndex(data.debtors, id)
    case None => (data, false)
    case Some(i) =>
      var s := data.debtors;
      assert s == s[..i] + [s[i]] + s[i + 1..];
      (LegacyData(s[..i] + s[i + 1..], data.settled + [LegacySettled(s[i], today)]), true)
  }

  /** With unique ids, a moved debtor is no longer found among the debtors. */
  lemma MovedIsGone(data: LegacyData, id: JsonId, today: Date)
    requires forall i, j :: 0 <= i < j < |data.debtors| ==> data.debtors[i].id != data.debtors[j].id
    requires MoveToSettled(data, id, today).1
    ensures FindById(MoveToSettled(data, id, today).0.debtors, id).None?
  {
    var i := FirstIndex(data.debtors, id).value;
    var rest := MoveToSettled(data, id, today).0.debtors;
    forall k | 0 <= k < |rest|
      ensures rest[k].id != id
    {
      if k < i {
        assert rest[k] == data.debtors[k];
      } else {
        assert rest[k] == data.debtors[k + 1];
      }
    }
  }

  function SumPrincipal(s: seq<LegacyDebtor>): real {
    if s == [] then 0.0 else s[0].principal + SumPrincipal(s[1..])
  }

  /**
   * `calcularJurosMensaisPossiveis`: the interest collected if every debtor paid
   * one month's interest, 40% of each principal.
   */
  function PossibleMonthlyInterest(s: seq<LegacyDebtor>): (total: real)
    ensures total == 0.4 * SumPrincipal(s)
  {
    if s == [] then 0.0 else s[0].principal * 0.4 + PossibleMonthlyInterest(s[1..])
  }

  // ----- the JSON interest run -----

  /** The late penalty of this variant: R$20 per day (the doc comment says R$10). */
  const LegacyDailyPenalty: real := 20.0

  /** Days since the last update, per `diff()->days`; an absent stamp parses as now. */
  function DaysSinceUpdate(e: LegacyDebtor, now: Instant): nat {
    match e.lastUpdate
    case Some(d) => WholeDays(d, now)
    case None => 0
  }

  /**
   * One entry of the JSON `atualizarJuros`.  `gap` is the calendar difference
   * `DateTime::diff` reports from the last payment date to now.  Entries with a
   * balance of zero or less are skipped; a full calendar month since the last
   * payment multiplies by 1.4 and stamps today; otherwise, with kind 'nenhum', each
   * day since the last stamp costs R$20 and the entry is stamped.
   */
  function AccrueEntry(e: LegacyDebtor, gap: CalendarGap, now: Instant): (r: LegacyDebtor)
    ensures r == e.(balance := r.balance, lastUpdate := r.lastUpdate)
    ensures e.balance <= 0.0 ==> r == e
    ensures r == e || r.lastUpdate == Some(now.date)
    ensures gap.years == 0 && gap.months == 0 && e.lastKind != "nenhum" ==> r == e
    ensures gap.years == 0 && gap.months == 0 && DaysSinceUpdate(e, now) == 0 ==> r == e
  {
    if e.balance <= 0.0 then e
    else if gap.months >= 1 || gap.years > 0 then
      e.(balance := e.balance * 1.4, lastUpdate := Some(now.date))
    else
      var k := DaysSinceUpdate(e, now);
      if k > 0 && e.lastKind == PaymentKinds.Tag(PaymentKinds.NoPayment) then
        e.(balance := e.balance + LegacyDailyPenalty * (k as real), lastUpdate := Some(now.date))
      else e
  }

  /** A month or more since the last payment: 1.4 times, stamped, and no penalty that run. */
  lemma MonthBranch(e: LegacyDebtor, gap: CalendarGap, now: Instant)
    requires e.balance > 0.0
    requires gap.months >= 1 || gap.years > 0
    ensures AccrueEntry(e, gap, now) == e.(balance := e.balance * 1.4, lastUpdate := Some(now.date))
  {
  }

  /** Under a month: the penalty grows with the days since the last stamp. */
  lemma PenaltyBranch(e: LegacyDebtor, gap: CalendarGap, now: Instant)
    requires e.balance > 0.0
    requires gap.months == 0 && gap.years == 0
    requires e.lastKind == "nenhum"
    ensures AccrueEntry(e, gap, now).balance == e.balance + 20.0 * (DaysSinceUpdate(e, now) as real)
  {
  }

  /** A positive balance never goes down. */
  lemma EntryNeverLowers(e: LegacyDebtor, gap: CalendarGap, now: Instant)
    ensures e.balance > 0.0 ==> AccrueEntry(e, gap, now).balance >= e.balance
  {
  }

  /** A rerun at the same moment adds no further penalty: the stamp is today. */
  lemma PenaltyNotRepeated(e: LegacyDebtor, gap: CalendarGap, now: Instant)
    requires now.tick < TicksPerDay
    requires gap.months == 0 && gap.years == 0
    ensures AccrueEntry(AccrueEntry(e, gap, now), gap, now) == AccrueEntry(e, gap, now)
  {
    var once := AccrueEntry(e, gap, now);
    if once != e {
      WholeDaysSameDate(now);
      assert DaysSinceUpdate(once, now) == 0;
    }
  }

  /** The JSON `atualizarJuros` over the whole list, in order. */
  function AccrueAll(s: seq<LegacyDebtor>, gapOf: Date -> CalendarGap, now: Instant): (r: seq<LegacyDebtor>)
    ensures |r| == |s|
    ensures forall k :: 0 <= k < |s| ==> r[k] == AccrueEntry(s[k], gapOf(s[k].lastPaymentDate), now)
  {
    seq(|s|, k requires 0 <= k < |s| => AccrueEntry(s[k], gapOf(s[k].lastPaymentDate), now))
  }

  /** Over a whole run, no positive balance goes down. */
  lemma AllNeverLowers(s: seq<LegacyDebtor>, gapOf: Date -> CalendarGap, now: Instant)
    ensures forall k :: 0 <= k < |s| && s[k].balance > 0.0 ==>
              AccrueAll(s, gapOf, now)[k].balance >= s[k].balance
  {
    forall k | 0 <= k < |s| && s[k].balance > 0.0
      ensures AccrueAll(s, gapOf, now)[k].balance >= s[k].balance
    {
      EntryNeverLowers(s[k], gapOf(s[k].lastPaymentDate), now);
    }
  }

  /**
   * When no entry is a month past its last payment, a second run at the same moment
   * changes nothing: every penalised entry was stamped today.
   */
  lemma AllPenaltyNotRepeated(s: seq<LegacyDebtor>, gapOf: Date -> CalendarGap, now: Instant)
    requires now.tick < TicksPerDay
    requires forall k :: 0 <= k < |s| ==>
               gapOf(s[k].lastPaymentDate).months == 0 && gapOf(s[k].lastPaymentDate).years == 0
    ensures AccrueAll(AccrueAll(s, gapOf, now), gapOf, now) == AccrueAll(s, gapOf, now)
  {
    var once := AccrueAll(s, gapOf, now);
    forall k | 0 <= k < |s|
      ensures AccrueAll(once, gapOf, now)[k] == once[k]
    {
      PenaltyNotRepeated(s[k], gapOf(s[k].lastPaymentDate), now);
    }
  }
}

=== FILE: listing.dfy ===
/**
 * The listing of index.php: run the interest update, reload the debtors, split
 * them into "payment due today" and "other debtors", sort each group by name with
 * `strcmp`, and total the principals and the monthly interest.
 */
module Listing {
  import opened Wrappers
  import opened Money
  import opened Calendar
  import opened Text
  import opened Ledger
  import Accrual

  /**
   * A loan is due today when its last payment fell on today's day of the month,
   * unless that was in today's month (of any year) with fewer than 30 whole days
   * elapsed.
   */
  predicate IsDueToday(row: DebtorRow, now: Instant) {
    var sameDay := row.lastPaymentDate.day == now.date.day;
    var sameMonth := row.lastPaymentDate.month == now.date.month;
    sameDay && !(sameMonth && WholeDays(row.lastPaymentDate, now) < 30)
  }

  /** The rows satisfying (or, with `keep` false, failing) the due-today test, in order. */
  function Select(rows: seq<DebtorRow>, now: Instant, keep: bool): (r: seq<DebtorRow>)
    ensures forall x :: x in r ==> x in rows && IsDueToday(x, now) == keep
    ensures forall x :: x in rows && IsDueToday(x, now) == keep ==> x in r
  {
    if rows == [] then []
    else
      var tail := Select(rows[1..], now, keep);
      assert forall x :: x in rows ==> x == rows[0] || x in rows[1..];
      if IsDueToday(rows[0], now) == keep then [rows[0]] + tail else tail
  }

  /** The two selections together hold every row exactly as often as the input does. */
  lemma {:induction false} SelectPartitions(rows: seq<DebtorRow>, now: Instant)
    ensures multiset(Select(rows, now, true)) + multiset(Select(rows, now, false)) == multiset(rows)
  {
    if rows != [] {
      SelectPartitions(rows[1..], now);
      assert rows == [rows[0]] + rows[1..];
    }
  }

  predicate SortedByName(s: seq<DebtorRow>) {
    forall i, j :: 0 <= i < j < |s| ==> NameLe(s[i].name, s[j].name)
  }

  /** A row that sorts before every row of a sorted sequence can be put in front of it. */
  lemma ConsSorted(h: DebtorRow, t: seq<DebtorRow>)
    requires SortedByName(t)
    requires forall k :: 0 <= k < |t| ==> NameLe(h.name, t[k].name)
    ensures SortedByName([h] + t)
  {
    var r := [h] + t;
    forall i, j | 0 <= i < j < |r|
      ensures NameLe(r[i].name, r[j].name)
    {
      assert r[j] == t[j - 1];
      if i > 0 {
        assert r[i] == t[i - 1];
      }
    }
  }

  /** A lower bound of a sequence and of one more row bounds any permutation of them. */
  lemma BoundedPermutation(b: string, x: DebtorRow, s: seq<DebtorRow>, t: seq<DebtorRow>)
    requires multiset(t) == multiset(s) + multiset{x}
    requires NameLe(b, x.name)
    requires forall k :: 0 <= k < |s| ==> NameLe(b, s[k].name)
    ensures forall k :: 0 <= k < |t| ==> NameLe(b, t[k].name)
  {
    forall k | 0 <= k < |t|
      ensures NameLe(b, t[k].name)
    {
      assert t[k] in multiset(t);
      if t[k] != x {
        assert t[k] in multiset(s);
        var j :| 0 <= j < |s| && s[j] == t[k];
      }
    }
  }

  /** Inserts a row into a name-sorted sequence, before the first row it does not sort after. */
  function Insert(x: DebtorRow, s: seq<DebtorRow>): (r: seq<DebtorRow>)
    requires SortedByName(s)
    ensures multiset(r) == multiset(s) + multiset{x}
    ensures SortedByName(r)
  {
    if s == [] then [x]
    else if NameLe(x.name, s[0].name) then
      assert forall j :: 0 <= j < |s| ==> NameLe(x.name, s[j].name) by {
        forall j | 0 <= j < |s|
          ensures NameLe(x.name, s[j].name)
        {
          if j > 0 {
            NameLeTransitive(x.name, s[0].name, s[j].name);
          }
        }
      }
      ConsSorted(x, s);
      [x] + s
    else
      var tail := Insert(x, s[1..]);
      NameLeTotal(x.name, s[0].name);
      BoundedPermutation(s[0].name, x, s[1..], tail);
      ConsSorted(s[0], tail);
      assert s == [s[0]] + s[1..];
      [s[0]] + tail
  }

  /** `usort` with `strcmp` on the name: a permutation of the input in ascending name order. */
  function SortByName(s: seq<DebtorRow>): (r: seq<DebtorRow>)
    ensures multiset(r) == multiset(s)
    ensures SortedByName(r)
  {
    if s == [] then []
    else
      assert s == [s[0]] + s[1..];
      Insert(s[0], SortByName(s[1..]))
  }

  datatype Buckets = Buckets(dueToday: seq<DebtorRow>, others: seq<DebtorRow>)

  /** `$pagamentosHoje` and `$outrosDevedores`, each sorted by name. */
  function Classify(rows: seq<DebtorRow>, now: Instant): (b: Buckets)
    ensures multiset(b.dueToday) + multiset(b.others) == multiset(rows)
    ensures forall x :: x in b.dueToday ==> IsDueToday(x, now)
    ensures forall x :: x in b.others ==> !IsDueToday(x, now)
    ensures SortedByName(b.dueToday) && SortedByName(b.others)
  {
    var due := SortByName(Select(rows, now, true));
    var others := SortByName(Select(rows, now, false));
    SelectPartitions(rows, now);
    assert forall x :: x in due ==> x in multiset(Select(rows, now, true));
    assert forall x :: x in others ==> x in multiset(Select(rows, now, false));
    Buckets(due, others)
  }

  /** Each loan lands in the bucket its due-today test selects, and in no other. */
  lemma ClassifyPlacesEachLoan(rows: seq<DebtorRow>, now: Instant, x: DebtorRow)
    requires x in rows
    ensures x in Classify(rows, now).dueToday <==> IsDueToday(x, now)
    ensures x in Classify(rows, now).others <==> !IsDueToday(x, now)
  {
    var b := Classify(rows, now);
    assert x in multiset(rows);
  }

  // ----- totals -----

  function SumPrincipal(rows: seq<DebtorRow>): Cents {
    if rows == [] then 0 else rows[0].principal + SumPrincipal(rows[1..])
  }

  function SumMonthlyInterest(rows: seq<DebtorRow>): Mills {
    if rows == [] then 0 else MonthlyInterest(rows[0].principal) + SumMonthlyInterest(rows[1..])
  }

  /** The summary figures of the listing. */
  datatype Totals = Totals(
    lent: Cents,                 // totalEmprestado
    monthlyInterest: Mills,      // totalJurosMensais
    withInterest: Mills,         // totalComJuros
    interestToday: Cents)        // totalJuros

  /** The totals: principals, 40% of them, and 140% of them; the "today" figure is a fixed R$80. */
  function ComputeTotals(rows: seq<DebtorRow>): (t: Totals)
    ensures t.lent == SumPrincipal(rows)
    ensures t.monthlyInterest == MonthlyInterest(SumPrincipal(rows))
    ensures t.withInterest == WithMonthlyInterest(SumPrincipal(rows))
    ensures t.interestToday == TodayInterestFigure
  {
    var lent := SumPrincipal(rows);
    MonthlyInterestIsFortyPercent(rows);
    Totals(lent, SumMonthlyInterest(rows), ToMills(lent) + SumMonthlyInterest(rows), TodayInterestFigure)
  }

  /** The summed monthly interest is 40% of the summed principals. */
  lemma {:induction false} MonthlyInterestIsFortyPercent(rows: seq<DebtorRow>)
    ensures SumMonthlyInterest(rows) == MonthlyInterest(SumPrincipal(rows))
  {
    if rows != [] {
      MonthlyInterestIsFortyPercent(rows[1..]);
    }
  }

  /** Totals read only principals, so rows that differ only in balance give the same totals. */
  lemma {:induction false} TotalsIgnoreBalances(a: seq<DebtorRow>, b: seq<DebtorRow>)
    requires |a| == |b| && forall k :: 0 <= k < |a| ==> a[k].principal == b[k].principal
    ensures ComputeTotals(a) == ComputeTotals(b)
  {
    if a != [] {
      TotalsIgnoreBalances(a[1..], b[1..]);
    }
  }

  datatype Listing = Listing(buckets: Buckets, totals: Totals)

  /**
   * index.php lines 23-84: accrue, reload, classify and total.  The buckets hold
   * the post-accrual rows; the totals equal those of the rows before the run.  A
   * balance write that fails ends the page before anything is listed, leaving the
   * balances written so far in place.
   */
  method RefreshAndList(db: Db, now: Instant, failAt: Option<nat>) returns (db': Db, view: Option<Listing>)
    requires Valid(db)
    ensures view.None? <==> Accrual.WriteFailsAt(db.debtors, now, failAt)
    ensures view.None? ==>
              db'.debtors == Accrual.AccruedRows(db.debtors[..failAt.value], now) + db.debtors[failAt.value..]
    ensures view.Some? ==> db'.debtors == Accrual.AccruedRows(db.debtors, now)
    ensures view.Some? ==> view.value.buckets == Classify(db'.debtors, now)
    ensures view.Some? ==>
              multiset(view.value.buckets.dueToday) + multiset(view.value.buckets.others) == multiset(db'.debtors)
    ensures view.Some? ==> view.value.totals == ComputeTotals(db.debtors)
    ensures db'.settled == db.settled
    ensures Valid(db')
  {
    var updated, completed;
    db', updated, completed := Accrual.RunAccrual(db, now, failAt);
    if !completed {
      return db', None;
    }
    TotalsIgnoreBalances(db.debtors, db'.debtors);
    view := Some(Listing(Classify(db'.debtors, now), ComputeTotals(db'.debtors)));
  }

  /** A payment recorded on today's date (0 days ago) is not due today. */
  lemma PaidTodayNotDue(row: DebtorRow, now: Instant)
    requires now.tick < TicksPerDay
    requires row.lastPaymentDate == now.date
    ensures !IsDueToday(row, now)
  {
    WholeDaysSameDate(now);
  }

  /** One month on, on the same day of the month, the loan is due, even after only 28 days. */
  lemma DueAfterFebruary()
    ensures IsDueToday(
      DebtorRow(1, "Bia", "", "", 50000, 50000, Date(2025, 1, 1), Date(2025, 2, 1), "juros"),
      Instant(Date(2025, 3, 1), 0))
  {
  }

  /** The same day and month a year later is due: the month test ignores the year. */
  lemma DueAYearLater(row: DebtorRow, now: Instant)
    requires now.tick < TicksPerDay
    requires row.lastPaymentDate == Date(2024, 5, 10) && now.date == Date(2025, 5, 10)
    ensures IsDueToday(row, now)
  {
    assert DayNumber(Date(2025, 5, 10)) - DayNumber(Date(2024, 5, 10)) == 365;
    WholeDaysForward(row.lastPaymentDate, now);
  }
}

=== FILE: migration.dfy ===
/**
 * The one-off move of the legacy `dados.json` contents into SQLite
 * (`migrarDadosJsonParaSQLite`).  Reading and renaming the file are left to the
 * caller; the model receives the decoded contents, or None when the file is
 * missing or decodes to nothing.
 */
module Migration {
  import opened Wrappers
  import opened Money
  import opened Calendar
  import opened Ledger

  /** An entry of the legacy `quitados` list. */
  datatype SettledFields = SettledFields(
    name: string,
    phone: Option<string>,
    address: Option<string>,
    principal: Cents,
    loanDate: Date,
    settledOn: Date)

  /** The decoded file: either list may be absent. */
  datatype LegacyDump = LegacyDump(debtors: Option<seq<DebtorFields>>, settled: Option<seq<SettledFields>>)

  /** A migrated debtor keeps its own balance, last payment date and kind. */
  function MigratedDebtor(f: DebtorFields): DebtorRow {
    DebtorRow(0, f.name, f.phone.GetOr(""), f.address.GetOr(""), f.principal,
              f.balance, f.loanDate, f.lastPaymentDate, f.lastKind)
  }

  function MigratedSettled(f: SettledFields): SettledRow {
    SettledRow(0, f.name, f.phone.GetOr(""), f.address.GetOr(""), f.principal, f.loanDate, f.settledOn)
  }

  /** Inserts the legacy debtors in list order. */
  function InsertAllDebtors(db: Db, fs: seq<DebtorFields>): (r: Db)
    ensures |r.debtors| == |db.debtors| + |fs| && r.debtors[..|db.debtors|] == db.debtors
    ensures forall k :: 0 <= k < |fs| ==>
              r.debtors[|db.debtors| + k] == MigratedDebtor(fs[k]).(id := db.nextDebtorId + k)
    ensures r.nextDebtorId == db.nextDebtorId + |fs|
    ensures r.settled == db.settled && r.nextSettledId == db.nextSettledId
    ensures Valid(db) ==> Valid(r)
    decreases |fs|
  {
    if fs == [] then db
    else
      var db1 := InsertDebtor(db, MigratedDebtor(fs[0]));
      var r := InsertAllDebtors(db1, fs[1..]);
      assert r.debtors[..|db.debtors|] == r.debtors[..|db.debtors| + 1][..|db.debtors|];
      assert r.debtors[|db.debtors|] == r.debtors[..|db1.debtors|][|db.debtors|];
      r
  }

  /** Inserts the legacy settled loans in list order. */
  function InsertAllSettled(db: Db, fs: seq<SettledFields>): (r: Db)
    ensures |r.settled| == |db.settled| + |fs| && r.settled[..|db.settled|] == db.settled
    ensures forall k :: 0 <= k < |fs| ==>
              r.settled[|db.settled| + k] == MigratedSettled(fs[k]).(id := db.nextSettledId + k)
    ensures r.nextSettledId == db.nextSettledId + |fs|
    ensures r.debtors == db.debtors && r.nextDebtorId == db.nextDebtorId
    ensures Valid(db) ==> Valid(r)
    decreases |fs|
  {
    if fs == [] then db
    else
      var db1 := InsertSettled(db, MigratedSettled(fs[0]));
      var r := InsertAllSettled(db1, fs[1..]);
      assert r.settled[..|db.settled|] == r.settled[..|db.settled| + 1][..|db.settled|];
      assert r.settled[|db.settled|] == r.settled[..|db1.settled|][|db.settled|];
      r
  }

  /**
   * `migrarDadosJsonParaSQLite`: copies the legacy lists only when both tables are
   * empty, all in one transaction (a fault rolls everything back).  It reports
   * success whenever the file had contents and no fault occurred, even when the
   * guard skipped the copy.
   */
  function Migrate(db: Db, dump: Option<LegacyDump>, fault: bool): (r: (Db, bool))
    ensures r.1 <==> dump.Some? && (!fault || |db.debtors| > 0 || |db.settled| > 0)
    ensures !r.1 ==> r.0 == db
    ensures |db.debtors| > 0 || |db.settled| > 0 ==> r.0 == db
    ensures r.1 && |db.debtors| == 0 && |db.settled| == 0 ==>
              && |r.0.debtors| == |dump.value.debtors.GetOr([])|
              && |r.0.settled| == |dump.value.settled.GetOr([])|
              && (forall k :: 0 <= k < |r.0.debtors| ==>
                    r.0.debtors[k] == MigratedDebtor(dump.value.debtors.GetOr([])[k]).(id := db.nextDebtorId + k))
              && (forall k :: 0 <= k < |r.0.settled| ==>
                    r.0.settled[k] == MigratedSettled(dump.value.settled.GetOr([])[k]).(id := db.nextSettledId + k))
    ensures Valid(db) ==> Valid(r.0)
  {
    match dump
    case None => (db, false)
    case Some(d) =>
      if |db.debtors| == 0 && |db.settled| == 0 then
        if fault then (db, false)
        else
          var withDebtors := InsertAllDebtors(db, d.debtors.GetOr([]));
          var r := InsertAllSettled(withDebtors, d.settled.GetOr([]));
          assert r.debtors == withDebtors.debtors;
          (r, true)
      else (db, true)
  }

  /** After a run that succeeded, running the migration again inserts nothing. */
  lemma MigrateTwiceInsertsNothing(db: Db, dump: Option<LegacyDump>, fault1: bool, fault2: bool)
    requires Migrate(db, dump, fault1).1
    ensures Migrate(Migrate(db, dump, fault1).0, dump, fault2).0 == Migrate(db, dump, fault1).0
  {
  }
}

=== FILE: money.dfy ===
/**
 * Money as exact integers.  The SQLite back end stores two-decimal amounts, so
 * balances are whole centavos; the 40% interest and the 1.4 multiplier are exact
 * in thousandths of a real ("mills", ten per centavo).
 */
module Money {

  /** An amount in centavos (hundredths of a real). */
  type Cents = int

  /** An amount in thousandths of a real. */
  type Mills = int

  /** The flat late penalty added by one accrual run: R$10. */
  const DailyPenalty: Cents := 1000

  /** The figure shown as "interest receivable today": the constant R$80.00. */
  const TodayInterestFigure: Cents := 8000

  function ToMills(c: Cents): Mills {
    10 * c
  }

  /** 40% of an amount (the monthly interest on a principal), exact in mills. */
  function MonthlyInterest(principal: Cents): Mills {
    4 * principal
  }

  /** 140% of an amount (the principal plus one month's interest), exact in mills. */
  function WithMonthlyInterest(amount: Cents): Mills {
    14 * amount
  }

  /**
   * PHP's `round(x, 2)`: the nearest centavo, a tie going away from zero.
   * The contract pins the result down uniquely.
   */
  function RoundToCents(m: Mills): (c: Cents)
    ensures -5 <= m - ToMills(c) <= 5
    ensures m - ToMills(c) == 5 ==> m < 0
    ensures m - ToMills(c) == -5 ==> m > 0
    ensures m % 10 == 0 ==> ToMills(c) == m
  {
    if m >= 0 then (m + 5) / 10 else -((-m + 5) / 10)
  }

  /** Rounding is monotone: a larger amount never rounds to fewer centavos. */
  lemma RoundMonotone(a: Mills, b: Mills)
    requires a <= b
    ensures RoundToCents(a) <= RoundToCents(b)
  {
  }
}

=== FILE: payment.dfy ===
/**
 * The payment page (pagamento.php).  Given the id from the query string and the
 * posted kind, it stamps the debtor with today's date and the kind, and then:
 * 'total' updates and moves the loan to `quitados`; 'juros' updates and reports
 * 40% of the principal as paid; 'nenhum' only updates; anything else is refused.
 * The page also means to reset the balance (to 0 for 'total', to the principal
 * for 'juros'), but `atualizarDevedor` does not write the balance, so that part
 * never reaches the table.
 */
module Payment {
  import opened Wrappers
  import opened Money
  import opened Calendar
  import opened Ledger
  import PaymentKinds

  /** The request: the `id` query parameter and the posted `tipo_pagamento`, each possibly absent. */
  datatype PaymentRequest = PaymentRequest(id: Option<int>, kindText: Option<string>)

  datatype PaymentOutcome =
    | Redirected                 // no id, or no such debtor
    | FormShown                  // nothing posted
    | Settled                    // 'total': updated and moved
    | RecordedButNotMoved        // 'total': updated, the move failed
    | InterestRecorded(paid: Mills)
    | NoPaymentRecorded
    | StorageError               // the update failed
    | InvalidKind

  /** The debtor's row read back as the array the page edits. */
  function FieldsOf(row: DebtorRow): DebtorFields {
    DebtorFields(row.name, Some(row.phone), Some(row.address), row.principal, row.balance,
                 row.loanDate, row.lastPaymentDate, row.lastKind)
  }

  /** The balance the page means to leave for each recognised kind. */
  function IntendedBalance(k: PaymentKinds.PaymentKind, row: DebtorRow): Cents {
    match k
    case Full => 0
    case InterestOnly => row.principal
    case NoPayment => row.balance
  }

  /** The outcomes that leave the row active and stamped with the payment. */
  predicate Recorded(o: PaymentOutcome) {
    o.RecordedButNotMoved? || o.InterestRecorded? || o.NoPaymentRecorded?
  }

  /** The array the page persists: the debtor with today's date and the posted kind. */
  function Stamped(row: DebtorRow, today: Date, text: string): DebtorFields {
    FieldsOf(row).(lastPaymentDate := today, lastKind := text)
  }

  /** The branch of the `switch` for a recognised kind, applied to the debtor `row` with id `id`. */
  function ApplyKind(db: Db, id: int, row: DebtorRow, k: PaymentKinds.PaymentKind, today: Date,
                     updateFault: bool, moveFault: bool): (r: (Db, PaymentOutcome))
    requires FindDebtor(db, id) == Some(row)
    ensures r.1.StorageError? <==> updateFault
    ensures r.1.StorageError? ==> r.0 == db
    ensures r.1.Settled? <==> k.Full? && !updateFault && !moveFault
    ensures r.1.Settled? ==>
              && !HasDebtor(r.0, id)
              && |r.0.settled| == |db.settled| + 1
              && r.0.settled[..|db.settled|] == db.settled
              && r.0.settled[|db.settled|] == SettledCopy(db.nextSettledId, row, today)
              && (forall x :: x in db.debtors && x.id != id ==> x in r.0.debtors)
              && (forall x :: x in r.0.debtors ==> x in db.debtors)
              && (Valid(db) ==> |r.0.debtors| == |db.debtors| - 1)
              && r.0 == MoveToSettled(UpdateDebtor(db, id, Stamped(row, today, "total"), false).0, id, today, false).0
    ensures r.1.InterestRecorded? <==> k.InterestOnly? && !updateFault
    ensures r.1.InterestRecorded? ==> r.1.paid == MonthlyInterest(row.principal)
    ensures r.1.NoPaymentRecorded? <==> k.NoPayment? && !updateFault
    ensures r.1.RecordedButNotMoved? <==> k.Full? && !updateFault && moveFault
    ensures Recorded(r.1) ==> r.0 == UpdateDebtor(db, id, Stamped(row, today, PaymentKinds.Tag(k)), false).0
    ensures !r.1.Redirected? && !r.1.FormShown? && !r.1.InvalidKind?
    ensures Valid(db) ==> Valid(r.0)
  {
    var f := Stamped(row, today, PaymentKinds.Tag(k));
    UpdateIgnoresBalance(db, id, f, IntendedBalance(k, row), updateFault);
    var (db1, ok) := UpdateDebtor(db, id, f.(balance := IntendedBalance(k, row)), updateFault);
    if !ok then (db1, StorageError)
    else
      match k
      case Full =>
        var (db2, moved) := MoveToSettled(db1, id, today, moveFault);
        assert FindDebtor(db1, id) == Some(Overwrite(row, f)) by {
          IndexOfSameIds(db.debtors, db1.debtors, id);
        }
        UpdateThenMoveKeepsOthers(db, id, f, today);
        (db2, if moved then Settled else RecordedButNotMoved)
      case InterestOnly => (db1, InterestRecorded(MonthlyInterest(row.principal)))
      case NoPayment => (db1, NoPaymentRecorded)
  }

  /** The payment handler as written (pagamento.php lines 19-101). */
  function HandlePayment(db: Db, req: PaymentRequest, today: Date, updateFault: bool, moveFault: bool)
    : (r: (Db, PaymentOutcome))
    ensures req.id.None? || !HasDebtor(db, req.id.value) ==> r == (db, Redirected)
    ensures r.1.Redirected? <==> req.id.None? || !HasDebtor(db, req.id.value)
    ensures r.1.FormShown? <==> req.id.Some? && HasDebtor(db, req.id.value) && req.kindText.None?
    ensures r.1.InterestRecorded? <==>
              req.id.Some? && HasDebtor(db, req.id.value) && req.kindText == Some("juros") && !updateFault
    ensures r.1.NoPaymentRecorded? <==>
              req.id.Some? && HasDebtor(db, req.id.value) && req.kindText == Some("nenhum") && !updateFault
    ensures r.1.RecordedButNotMoved? <==>
              req.id.Some? && HasDebtor(db, req.id.value) && req.kindText == Some("total") &&
              !updateFault && moveFault
    ensures req.id.Some? && HasDebtor(db, req.id.value) && req.kindText.Some? &&
            PaymentKinds.Parse(req.kindText.value).Some? ==>
              r == ApplyKind(db, req.id.value, FindDebtor(db, req.id.value).value,
                             PaymentKinds.Parse(req.kindText.value).value, today, updateFault, moveFault)
    ensures r.1.Redirected? || r.1.FormShown? || r.1.StorageError? || r.1.InvalidKind? ==> r.0 == db
    ensures r.1.InvalidKind? <==>
              req.id.Some? && HasDebtor(db, req.id.value) && req.kindText.Some? &&
              PaymentKinds.Parse(req.kindText.value).None?
    ensures r.1.StorageError? <==>
              req.id.Some? && HasDebtor(db, req.id.value) && req.kindText.Some? &&
              PaymentKinds.Parse(req.kindText.value).Some? && updateFault
    ensures r.1.Settled? <==>
              req.id.Some? && HasDebtor(db, req.id.value) && req.kindText == Some("total") &&
              !updateFault && !moveFault
    ensures r.1.Settled? ==>
              && !HasDebtor(r.0, req.id.value)
              && |r.0.settled| == |db.settled| + 1
              && r.0.settled[..|db.settled|] == db.settled
              && r.0.settled[|db.settled|] == SettledCopy(db.nextSettledId, FindDebtor(db, req.id.value).value, today)
              && (forall x :: x in db.debtors && x.id != req.id.value ==> x in r.0.debtors)
              && (forall x :: x in r.0.debtors ==> x in db.debtors)
              && (Valid(db) ==> |r.0.debtors| == |db.debtors| - 1)
    ensures r.1.InterestRecorded? ==>
              r.1.paid == MonthlyInterest(FindDebtor(db, req.id.value).value.principal)
    ensures Recorded(r.1) ==>
              req.id.Some? && req.kindText.Some? && FindDebtor(db, req.id.value).Some? &&
              r.0 == UpdateDebtor(db, req.id.value, Stamped(FindDebtor(db, req.id.value).value, today, req.kindText.value), false).0
    ensures Valid(db) ==> Valid(r.0)
  {
    if req.id.None? then (db, Redirected)
    else
      var id := req.id.value;
      match FindDebtor(db, id)
      case None => (db, Redirected)
      case Some(row) =>
        if req.kindText.None? then (db, FormShown)
        else
          match PaymentKinds.Parse(req.kindText.value)
          case None => (db, InvalidKind)
          case Some(k) => ApplyKind(db, id, row, k, today, updateFault, moveFault)
  }

  /**
   * A recorded payment that leaves the loan active changes only its last payment
   * date and kind; every other row, and the settled table, stay as they were.
   */
  lemma RecordedPaymentStampsOnly(db: Db, id: int, text: string, today: Date, moveFault: bool)
    requires Valid(db) && HasDebtor(db, id)
    requires Recorded(HandlePayment(db, PaymentRequest(Some(id), Some(text)), today, false, moveFault).1)
    ensures var row := FindDebtor(db, id).value;
            var i := IndexOf(db.debtors, id).value;
            HandlePayment(db, PaymentRequest(Some(id), Some(text)), today, false, moveFault).0.debtors ==
              db.debtors[i := row.(lastPaymentDate := today, lastKind := text)]
  {
    var row := FindDebtor(db, id).value;
    UpdateIsPointwise(db, id, Stamped(row, today, text));
  }

  /**
   * As written, an interest-only payment leaves the stored balance where accrual
   * put it: a loan that owes more than its principal still does afterwards,
   * although the page meant to reset it to the principal.
   */
  lemma InterestPaymentKeepsBalance(db: Db, id: int, today: Date)
    requires Valid(db) && HasDebtor(db, id)
    ensures var before := FindDebtor(db, id).value;
            var after := HandlePayment(db, PaymentRequest(Some(id), Some("juros")), today, false, false).0;
            FindDebtor(after, id).Some? && FindDebtor(after, id).value.balance == before.balance
  {
    RecordedPaymentStampsOnly(db, id, "juros", today, false);
    var after := HandlePayment(db, PaymentRequest(Some(id), Some("juros")), today, false, false).0;
    var i := IndexOf(db.debtors, id).value;
    IndexOfUnique(after.debtors, i);
  }

  /**
   * The payment handler as intended: the same steps, followed by the balance write
   * the page means to make whenever the loan is still active afterwards.
   */
  function HandlePaymentIntended(db: Db, req: PaymentRequest, today: Date, updateFault: bool, moveFault: bool)
    : (r: (Db, PaymentOutcome))
    ensures r.1 == HandlePayment(db, req, today, updateFault, moveFault).1
    ensures !Recorded(r.1) ==> r.0 == HandlePayment(db, req, today, updateFault, moveFault).0
    ensures Recorded(r.1) ==>
              && req.id.Some? && req.kindText.Some? && FindDebtor(db, req.id.value).Some?
              && PaymentKinds.Parse(req.kindText.value).Some?
              && FindDebtor(r.0, req.id.value).Some?
              && FindDebtor(r.0, req.id.value).value.balance ==
                   IntendedBalance(PaymentKinds.Parse(req.kindText.value).value, FindDebtor(db, req.id.value).value)
              && FindDebtor(r.0, req.id.value).value ==
                   FindDebtor(HandlePayment(db, req, today, updateFault, moveFault).0, req.id.value).value
                     .(balance := FindDebtor(r.0, req.id.value).value.balance)
    ensures Valid(db) ==> Valid(r.0)
  {
    var (db1, outcome) := HandlePayment(db, req, today, updateFault, moveFault);
    if Recorded(outcome) then
      var row := FindDebtor(db, req.id.value).value;
      var k := PaymentKinds.Parse(req.kindText.value).value;
      assert HasDebtor(db1, req.id.value) by {
        var i := IndexOf(db.debtors, req.id.value).value;
        assert db1.debtors[i].id == req.id.value;
      }
      SetBalanceThenFind(db1, req.id.value, IntendedBalance(k, row));
      (SetBalance(db1, req.id.value, IntendedBalance(k, row)), outcome)
    else (db1, outcome)
  }

  /** Intended behaviour: after an interest-only payment the loan owes exactly its principal. */
  lemma IntendedInterestResetsBalance(db: Db, id: int, today: Date)
    requires Valid(db) && HasDebtor(db, id)
    ensures var before := FindDebtor(db, id).value;
            var after := HandlePaymentIntended(db, PaymentRequest(Some(id), Some("juros")), today, false, false).0;
            FindDebtor(after, id).Some? && FindDebtor(after, id).value.balance == before.principal
            && FindDebtor(after, id).value.lastKind == "juros"
            && FindDebtor(after, id).value.lastPaymentDate == today
  {
    var before := FindDebtor(db, id).value;
    var i := IndexOf(db.debtors, id).value;
    RecordedPaymentStampsOnly(db, id, "juros", today, false);
    var mid := HandlePayment(db, PaymentRequest(Some(id), Some("juros")), today, false, false).0;
    IndexOfUnique(mid.debtors, i);
    SetBalanceIsPointwise(mid, id, before.principal);
    var after := SetBalance(mid, id, before.principal);
    IndexOfUnique(after.debtors, i);
  }

  /** Intended behaviour: a full payment whose move failed leaves the loan owing nothing. */
  lemma IntendedFullPaymentZeroesBalance(db: Db, id: int, today: Date)
    requires Valid(db) && HasDebtor(db, id)
    ensures var after := HandlePaymentIntended(db, PaymentRequest(Some(id), Some("total")), today, false, true).0;
            FindDebtor(after, id).Some? && FindDebtor(after, id).value.balance == 0
            && FindDebtor(after, id).value.lastKind == "total"
  {
    var i := IndexOf(db.debtors, id).value;
    RecordedPaymentStampsOnly(db, id, "total", today, true);
    var mid := HandlePayment(db, PaymentRequest(Some(id), Some("total")), today, false, true).0;
    IndexOfUnique(mid.debtors, i);
    SetBalanceIsPointwise(mid, id, 0);
    var after := SetBalance(mid, id, 0);
    IndexOfUnique(after.debtors, i);
  }
}

=== FILE: registration.dfy ===
/**
 * Registration of a new loan, posted from cadastro.php or from the inline form
 * of index.php; both pages apply the same rule and build the same record.
 */
module Registration {
  import opened Wrappers
  import opened Money
  import opened Calendar
  import opened Text
  import opened Ledger

  /**
   * The posted form.  The amount is the value `floatval` produced, in centavos; an
   * empty date field is None.
   */
  datatype RegistrationForm = RegistrationForm(
    name: string,
    phone: string,
    address: string,
    amount: Cents,
    loanDate: Option<Date>)

  datatype RegistrationOutcome =
    | Rejected            // a check failed; the form is shown again
    | Registered(id: int) // the insert succeeded
    | StorageError        // the insert threw; the page ends without a message

  /** The form passes the checks: a trimmed name PHP does not call empty, a positive amount, a date. */
  predicate Acceptable(form: RegistrationForm) {
    !IsPhpEmpty(Trim(form.name)) && form.amount > 0 && form.loanDate.Some?
  }

  /** The array handed to `adicionarDevedor` for an acceptable form. */
  function NewDebtorFields(form: RegistrationForm): DebtorFields
    requires form.loanDate.Some?
  {
    DebtorFields(Trim(form.name), Some(Trim(form.phone)), Some(Trim(form.address)), form.amount,
                 form.amount, form.loanDate.value, form.loanDate.value, "nenhum")
  }

  /**
   * Validates and registers.  A rejected form writes nothing; an accepted one adds
   * one row holding the trimmed text, the amount as both principal and balance, the
   * loan date as the last payment date and the kind 'nenhum'.  The success message
   * (or the redirect of index.php) follows only the insert.  The connection throws
   * when the insert fails, so a fault ends the page with no row added.
   */
  function Register(db: Db, form: RegistrationForm, fault: bool): (r: (Db, RegistrationOutcome))
    ensures r.1.Rejected? <==> !Acceptable(form)
    ensures r.1.Registered? <==> Acceptable(form) && !fault
    ensures r.1.StorageError? <==> Acceptable(form) && fault
    ensures !r.1.Registered? ==> r.0 == db
    ensures r.1.Registered? ==>
              && |r.0.debtors| == |db.debtors| + 1
              && r.0.debtors[..|db.debtors|] == db.debtors
              && r.0.settled == db.settled
              && var row := r.0.debtors[|db.debtors|];
                 && row.id == r.1.id
                 && row.name == Trim(form.name) && !IsPhpEmpty(row.name)
                 && row.phone == Trim(form.phone)
                 && row.address == Trim(form.address)
                 && row.principal == form.amount && row.principal > 0
                 && row.balance == form.amount
                 && Some(row.loanDate) == form.loanDate
                 && row.lastPaymentDate == row.loanDate
                 && row.lastKind == "nenhum"
    ensures Valid(db) ==> Valid(r.0)
  {
    if !Acceptable(form) then (db, Rejected)
    else if fault then (db, StorageError)
    else
      var (db', id) := AddDebtor(db, NewDebtorFields(form));
      (db', Registered(id))
  }

  /** PHP's `empty` also refuses the name "0", surrounding blanks included. */
  lemma ZeroNameRejected(db: Db, form: RegistrationForm, fault: bool)
    requires form.name == " 0 "
    ensures Register(db, form, fault) == (db, Rejected)
  {
    var t := Trim(form.name);
    assert LeadingTrimmable(form.name) == 1;
    assert form.name[1..] == "0 ";
    assert TrailingTrimmable("0 ") == 1;
    assert t == "0";
  }
}

=== FILE: text.dfy ===
/** The string functions of PHP the pages rely on: `trim`, `empty`, `strcmp` and integer formatting. */
module Text {

  /** The characters PHP's `trim` removes by default: space, tab, LF, CR, NUL and vertical tab. */
  predicate IsTrimmable(c: char) {
    c == ' ' || c == '\t' || c == '\n' || c == '\r' || c == '\0' || c == '\U{0B}'
  }

  /** The number of trimmable characters at the start of `s`. */
  function LeadingTrimmable(s: string): (n: nat)
    ensures n <= |s|
    ensures forall k :: 0 <= k < n ==> IsTrimmable(s[k])
    ensures n < |s| ==> !IsTrimmable(s[n])
  {
    if s == [] || !IsTrimmable(s[0]) then 0 else 1 + LeadingTrimmable(s[1..])
  }

  /** The number of trimmable characters at the end of `s`. */
  function TrailingTrimmable(s: string): (n: nat)
    ensures n <= |s|
    ensures forall k :: |s| - n <= k < |s| ==> IsTrimmable(s[k])
    ensures n < |s| ==> !IsTrimmable(s[|s| - n - 1])
  {
    if s == [] || !IsTrimmable(s[|s| - 1]) then 0 else 1 + TrailingTrimmable(s[..|s| - 1])
  }

  /**
   * PHP's `trim($s)`: the slice of `s` left after dropping its leading and trailing
   * whitespace, so what remains starts and ends with a non-whitespace character.
   */
  function Trim(s: string): (r: string)
    ensures exists i, j :: 0 <= i <= j <= |s| && r == s[i..j] &&
              (forall k :: 0 <= k < i ==> IsTrimmable(s[k])) &&
              (forall k :: j <= k < |s| ==> IsTrimmable(s[k]))
    ensures r != [] ==> !IsTrimmable(r[0]) && !IsTrimmable(r[|r| - 1])
    ensures (forall k :: 0 <= k < |s| ==> !IsTrimmable(s[k])) ==> r == s
  {
    var i := LeadingTrimmable(s);
    var inner := s[i..];
    var j := |s| - TrailingTrimmable(inner);
    assert inner[..|inner| - TrailingTrimmable(inner)] == s[i..j];
    assert forall k :: j <= k < |s| ==> s[k] == inner[k - i];
    s[i..j]
  }

  /** Trimming is idempotent. */
  lemma TrimIdempotent(s: string)
    ensures Trim(Trim(s)) == Trim(s)
  {
    var t := Trim(s);
    if t != [] {
      assert LeadingTrimmable(t) == 0;
      assert TrailingTrimmable(t) == 0;
    }
  }

  /** PHP's `empty()` on a string: the empty string and "0" count as empty. */
  predicate IsPhpEmpty(s: string) {
    s == "" || s == "0"
  }

  /**
   * `a` sorts strictly before `b` character by character: it is a proper prefix of
   * `b`, or at the first position where they differ its character is smaller.
   */
  predicate LexLess(a: string, b: string) {
    (|a| < |b| && a == b[..|a|]) ||
    exists i :: 0 <= i < |a| && i < |b| && a[..i] == b[..i] && a[i] < b[i]
  }

  /** Strings that share a non-empty prefix share their first character. */
  lemma SharedPrefixHead(a: string, b: string)
    ensures forall i :: 0 < i <= |a| && i <= |b| && a[..i] == b[..i] ==> a[0] == b[0]
  {
    forall i | 0 < i <= |a| && i <= |b| && a[..i] == b[..i]
      ensures a[0] == b[0]
    {
      assert a[..i][0] == b[..i][0];
    }
  }

  /** Different first characters decide the order. */
  lemma LexLessByHead(a: string, b: string)
    requires a != [] && b != [] && a[0] < b[0]
    ensures LexLess(a, b) && !LexLess(b, a)
  {
    assert a[..0] == b[..0];
    SharedPrefixHead(b, a);
  }

  /** Equal first characters leave the order to the rests. */
  lemma LexLessByTail(a: string, b: string)
    requires a != [] && b != [] && a[0] == b[0]
    ensures LexLess(a, b) <==> LexLess(a[1..], b[1..])
  {
    var a', b' := a[1..], b[1..];
    if |a'| < |b'| && a' == b'[..|a'|] {
      assert a == [a[0]] + a' && b[..|a|] == [b[0]] + b'[..|a'|];
    }
    if exists i :: 0 <= i < |a'| && i < |b'| && a'[..i] == b'[..i] && a'[i] < b'[i] {
      var i :| 0 <= i < |a'| && i < |b'| && a'[..i] == b'[..i] && a'[i] < b'[i];
      assert a[..i + 1] == [a[0]] + a'[..i] && b[..i + 1] == [b[0]] + b'[..i];
      assert a[i + 1] == a'[i] && b[i + 1] == b'[i];
    }
    if |a| < |b| && a == b[..|a|] {
      assert a' == b'[..|a'|];
    }
    if exists i :: 0 <= i < |a| && i < |b| && a[..i] == b[..i] && a[i] < b[i] {
      var i :| 0 <= i < |a| && i < |b| && a[..i] == b[..i] && a[i] < b[i];
      assert i > 0;
      assert a'[..i - 1] == a[..i][1..] && b'[..i - 1] == b[..i][1..];
      assert a'[i - 1] == a[i] && b'[i - 1] == b[i];
    }
  }

  /** `strcmp`: -1, 0 or 1 as `a` sorts before, equal to, or after `b`, character by character. */
  function Strcmp(a: string, b: string): (r: int)
    ensures -1 <= r <= 1
    ensures r == 0 <==> a == b
    ensures r < 0 <==> LexLess(a, b)
    ensures r > 0 <==> LexLess(b, a)
  {
    if a == [] && b == [] then 0
    else if a == [] then
      assert a == b[..0];
      -1
    else if b == [] then
      assert b == a[..0];
      1
    else if a[0] < b[0] then
      LexLessByHead(a, b);
      -1
    else if a[0] > b[0] then
      LexLessByHead(b, a);
      1
    else
      var r := Strcmp(a[1..], b[1..]);
      assert a == [a[0]] + a[1..] && b == [b[0]] + b[1..];
      LexLessByTail(a, b);
      LexLessByTail(b, a);
      r
  }

  /** `a` sorts no later than `b`. */
  predicate NameLe(a: string, b: string) {
    Strcmp(a, b) <= 0
  }

  /** Swapping the arguments of `strcmp` flips the sign. */
  lemma {:induction false} StrcmpAntisymmetric(a: string, b: string)
    ensures Strcmp(b, a) == -Strcmp(a, b)
  {
    if a != [] && b != [] && a[0] == b[0] {
      StrcmpAntisymmetric(a[1..], b[1..]);
    }
  }

  /** Any two names are ordered one way or the other. */
  lemma NameLeTotal(a: string, b: string)
    ensures NameLe(a, b) || NameLe(b, a)
  {
    StrcmpAntisymmetric(a, b);
  }

  /** The order `strcmp` induces is transitive. */
  lemma {:induction false} NameLeTransitive(a: string, b: string, c: string)
    requires NameLe(a, b) && NameLe(b, c)
    ensures NameLe(a, c)
  {
    if a != [] && b != [] && c != [] && a[0] == b[0] && b[0] == c[0] {
      NameLeTransitive(a[1..], b[1..], c[1..]);
    }
  }

  predicate IsDigit(c: char) {
    '0' <= c <= '9'
  }

  predicate AllDigits(s: string) {
    forall k :: 0 <= k < |s| ==> IsDigit(s[k])
  }

  function DigitChar(d: nat): char
    requires d < 10
  {
    (48 + d) as char
  }

  function DigitValue(c: char): nat
    requires IsDigit(c)
  {
    (c as int) - 48
  }

  /** PHP's conversion of a non-negative integer to decimal text. */
  function NatToString(n: nat): (s: string)
    ensures s != [] && AllDigits(s)
    ensures n == 0 ==> s == "0"
    ensures n > 0 ==> s[0] != '0'
  {
    if n < 10 then [DigitChar(n)] else NatToString(n / 10) + [DigitChar(n % 10)]
  }

  /** The value of a string of decimal digits. */
  function ParseDigits(s: string): nat
    requires AllDigits(s)
  {
    if s == [] then 0 else 10 * ParseDigits(s[..|s| - 1]) + DigitValue(s[|s| - 1])
  }

  /** Formatting then reading back a number gives the number. */
  lemma {:induction false} ParseNatToString(n: nat)
    ensures ParseDigits(NatToString(n)) == n
  {
    if n >= 10 {
      var s := NatToString(n);
      assert s[..|s| - 1] == NatToString(n / 10);
      ParseNatToString(n / 10);
    }
  }

  /** Splits off the longest prefix of decimal digits. */
  function SplitDigits(s: string): (r: (string, string))
    ensures AllDigits(r.0) && r.0 + r.1 == s
    ensures r.1 == [] || !IsDigit(r.1[0])
  {
    if s == [] || !IsDigit(s[0]) then ([], s)
    else
      var (d, rest) := SplitDigits(s[1..]);
      assert [s[0]] + d + rest == s;
      ([s[0]] + d, rest)
  }

  /** A digit string followed by a non-digit splits exactly there. */
  lemma {:induction false} SplitDigitsAt(ds: string, rest: string)
    requires AllDigits(ds)
    requires rest == [] || !IsDigit(rest[0])
    ensures SplitDigits(ds + rest) == (ds, rest)
  {
    if ds == [] {
      assert ds + rest == rest;
    } else {
      var s := ds + rest;
      assert s[0] == ds[0] && IsDigit(s[0]);
      assert s[1..] == ds[1..] + rest;
      SplitDigitsAt(ds[1..], rest);
      assert [ds[0]] + ds[1..] == ds;
    }
  }
}

=== FILE: wrappers.dfy ===
/** Optional values: the model's stand-in for PHP's `null` returns and unset array keys. */
module Wrappers {

  datatype Option<+T> = None | Some(value: T) {

    /** The value, or `default` when there is none (PHP's `isset($a[k]) ? $a[k] : default`). */
    function GetOr(default: T): T {
      match this
      case Some(v) => v
      case None => default
    }
  }
}
